=== FILE: README.md ===
# Store rating system: a Dafny model

This project models the sequential logic of a store rating web application.
Normal users rate stores from 1 to 5. Store owners see their store's ratings.
Administrators manage users and stores.

The backend is an Express/Sequelize service, modelled here as follows:

- **Tables** (`Schema`, `Tables`). The users, stores and ratings tables are one `Database` object, with the column constraints and unique indexes as its invariant. The handlers that change the tables are methods:
  - the rating upsert `submitRating`;
  - `createUser` and `createStore`;
  - the cascading deletes declared by the associations.
- **Read-only handlers** (`Queries`). These are pure functions:
  - the user and store listings, with their search, role filter and sort normalisation;
  - the owner dashboard;
  - the admin statistics.
- **Averages** (`Aggregate`, `RatingRows`). An average is kept in integer tenths with `toFixed(1)`'s rounding, where ties go up.
- **Validation** (`Validation`). The express-validator chains for signup and login, and their 400-or-next gate.

The React frontend contributes:

- the signup form's `validate()` and submit handler (`SignupPage`);
- the admin create-user and create-store forms, the order toggle and the owner rating cell (`AdminPages`);
- the draft-rating map of the store list (`StoreListPage`);
- the route guard, the route table and the post-login landing page (`Routing`).

Inputs the model cannot compute become parameters:

- the server's answer to a POST;
- the current time (`now`);
- the verdict of `isEmail`;
- the bcrypt digest of a password.

## Model

| member | source | states |
|---|---|---|
| Schema.ParseRole | backend/models/User.js:37-41 | a role string is accepted exactly when it is ADMIN, NORMAL_USER or STORE_OWNER, and the accepted role prints back as that string |
| Schema.RoleNameRoundTrip | backend/models/User.js:38 | every role's enum string parses back to that role |
| Schema.UserRowOk | backend/models/User.js:10-36 | a user row's name has 20..60 characters and its address at most 400 |
| Schema.UsersOk | backend/models/User.js:4-27 | every user row is valid with an id in 1..nextId-1, ids are distinct and no email appears twice |
| Schema.StoreRowOk | backend/models/Store.js:19-22 | a store row's address has at most 400 characters, its STRING(400) column |
| Schema.StoresOk | backend/models/index.js:7-8 | every store row meets StoreRowOk, store ids are distinct and in 1..nextId-1, and every owner reference names an existing user |
| Schema.RatingsOk | backend/models/Rating.js:5-24 | every score is in 1..5, ids are distinct and in 1..nextId-1, at most one row per (UserId, StoreId), and every row names an existing user and store |
| Text.Trim | backend/middleware/validation.js:5 | trimming removes only a prefix and a suffix of white space: the result is a slice of the input with non-space ends |
| Text.TrimShortensLeadingSpace | backend/middleware/validation.js:5-6 | a value that starts with white space is shorter after trimming |
| Text.UpperChar | backend/controllers/userController.js:18 | a-z map to A-Z, the long s (U+017F) to S and the dotless i (U+0131) to I: every character whose upper case is one ASCII letter gets it; other characters are kept, which is exact only as far as the comparison with 'DESC' can observe |
| Text.ToUpper | backend/controllers/userController.js:18 | the string upper-cased character by character with UpperChar, of the same length; exact for deciding whether `toUpperCase()` gives 'DESC' |
| Aggregate.Sum | backend/controllers/userController.js:35 | the left fold of the scores equals their sum taken from the front (SumFromFront) |
| Aggregate.FrontSplitLast | backend/controllers/userController.js:35 | summing from the front, the last score can be split off, which makes the two folds agree |
| Aggregate.RoundTenths | backend/controllers/userController.js:35-38 | the result t is the tenths value `toFixed(1)` gives: 2ct <= 20s + c < 2ct + 2c, so ties round up |
| Aggregate.RoundTenthsUnique | backend/controllers/userController.js:37 | exactly one tenths value satisfies that characterisation |
| Aggregate.AverageTenths | backend/controllers/storeOwnerController.js:26-30 | no scores give 0; otherwise the rounded mean of the scores in tenths |
| Aggregate.SumBounds | backend/models/Rating.js:13-16 | n valid scores sum to between n and 5n |
| Aggregate.AverageBounds | backend/controllers/storeOwnerController.js:27-30 | a non-empty average of valid scores lies between 1.0 and 5.0 |
| Aggregate.AverageExact | backend/controllers/userController.js:37 | an exact mean in tenths is reported unchanged |
| Aggregate.SingleScore | backend/controllers/userController.js:35-38 | a store with one rating k shows k.0 |
| Aggregate.TieRoundsUp | backend/controllers/userController.js:37 | {5,5,4,3}, whose mean is 4.25, is shown as 4.3 |
| Aggregate.SumAppend | backend/controllers/userController.js:35 | adding a score adds it to the sum |
| RatingRows.ScoresOf | backend/controllers/userController.js:35 | the scores of a store's ratings are taken in order, one per rating |
| RatingRows.StoreCount | backend/controllers/userController.js:32-37 | a store's rating count is at most the table size |
| RatingRows.StoreCountZero | backend/controllers/userController.js:32-37 | a store's rating count is 0 exactly when no row names the store |
| RatingRows.StoreAverage | backend/controllers/userController.js:35-38 | 0 for a store without ratings; otherwise the tenths value t with 2ct <= 20s + c < 2ct + 2c for the store's count c and score sum s |
| RatingRows.Rescored | backend/controllers/userController.js:78-79 | a rescored row keeps its id, user and store and takes the new score; an unchanged score leaves the row as it was, because save() writes nothing |
| RatingRows.FindStore | backend/controllers/userController.js:67-70 | the lookup finds a store exactly when one with that id exists, and then returns it |
| RatingRows.FindRating | backend/controllers/userController.js:73-75 | the lookup finds an index exactly when the (user, store) pair has a row, and the index holds that pair |
| RatingRows.OnlyRowFor | backend/models/Rating.js:20-24 | under the unique (UserId, StoreId) index, a row is the only one for its pair |
| RatingRows.NoRowFor | backend/controllers/userController.js:84-88 | a pair without a row has no rows |
| RatingRows.UpdateKeepsCounts | backend/controllers/userController.js:77-80 | replacing a row by one for the same store keeps every store's rating count |
| RatingRows.InsertCounts | backend/controllers/userController.js:84-90 | appending a row adds one to its store's count and leaves other stores' counts alone |
| RatingRows.StoreScoresOk | backend/models/Rating.js:13-16 | the scores of one store's ratings are all between 1 and 5 when the table's are |
| RatingRows.StoreAverageBounds | backend/controllers/storeOwnerController.js:27-30 | a rated store's average lies between 1.0 and 5.0 |
| RatingRows.CountsOverRated | backend/models/index.js:15-16 | summed over distinct stores, the per-store counts equal the number of ratings that belong to some listed store |
| RatingRows.CountsPartitionTable | backend/models/index.js:15-16 | when every rating belongs to one of the stores, the per-store counts add up to the table size |
| Tables.RoleOrDefault | backend/controllers/adminController.js:38 | a missing role becomes NORMAL_USER; any other value must be one of the enum's strings |
| Tables.ClearOwner | backend/models/index.js:7-8 | deleting a user clears the owner reference of exactly the stores it owned and changes nothing else |
| Tables.Database.constructor | backend/models/index.js:7-16 | the empty tables satisfy every schema invariant |
| Tables.Database.SubmitRating | backend/controllers/userController.js:58-95 | an out-of-range score gives 400 before the store lookup; an unknown store gives 404; in both cases the table is unchanged. An existing pair is rescored in place (200); otherwise one row is appended (201). After a success the pair has exactly one row, holding the score. An update keeps every store's count; an insert adds one to this store only. The unique index holds throughout |
| Tables.Database.RescoreRow | backend/controllers/userController.js:77-80 | the row is rescored in place, every other row stays, the counts are kept and the invariant holds |
| Tables.Database.AppendRating | backend/controllers/userController.js:84-90 | one row with the next id is appended, it is the pair's only row, and the invariant holds |
| Tables.Database.RescoreKeepsValid | backend/models/Rating.js:20-24 | rescoring a row keeps ids, references and the unique pair index |
| Tables.Database.AppendKeepsValid | backend/models/Rating.js:5-9 | appending a row for a new pair with the next id keeps ids distinct and the pair index unique |
| Tables.Database.RescoreKeepsTables | backend/controllers/userController.js:78-79 | rescoring a row keeps all three tables valid |
| Tables.Database.AppendKeepsTables | backend/controllers/userController.js:84-88 | appending a row for a new pair keeps all three tables valid, makes it the pair's only row and adds one to its store's count only |
| Tables.Database.CreateUser | backend/controllers/adminController.js:21-50 | an email already present gives 409 and adds no user; otherwise the user is appended with the given role or NORMAL_USER and the reply carries id, name, email and role but no password; an email `isEmail` rejects, a role outside the enum, or a name or address outside its column bounds is a 500 that adds nothing |
| Tables.Database.CreateStore | backend/controllers/adminController.js:52-67 | the store is appended with the next id; an email `isEmail` rejects, an address over 400 characters or an owner id naming no user is a 500 that adds nothing |
| Tables.Database.DeleteUser | backend/models/index.js:7-12 | deleting a user removes it, deletes its ratings and clears its stores' owner reference |
| Tables.Database.DeleteUserKeepsUsers | backend/models/User.js:20-27 | removing a user keeps the rest of the table valid and every other user present |
| Tables.Database.DeleteUserKeepsStores | backend/models/index.js:7-8 | clearing the owner reference keeps every store and its remaining owner references valid |
| Tables.Database.DeleteUserKeepsRatings | backend/models/index.js:11-12 | the ratings left after the cascade refer only to existing users and stores |
| Tables.Database.DeleteUserKeepsTables | backend/models/index.js:7-12 | deleting a user with its cascades keeps all three tables valid |
| Tables.Database.DeleteStoreKeepsTables | backend/models/index.js:15-16 | deleting a store with its ratings keeps all three tables valid |
| Tables.Database.DeleteStore | backend/models/index.js:15-16 | deleting a store removes it and every rating for it, and keeps users |
| Queries.NormalizeOrder | backend/controllers/userController.js:18 | the sort order is DESC exactly when the parameter spells DESC in any mix of cases (the long s counting as s), ASC otherwise, an empty or missing one included |
| Queries.UpperIsDesc | backend/controllers/userController.js:18 | a non-empty string upper-cases to "DESC" exactly when it spells DESC in some mix of cases |
| Queries.SortField | backend/controllers/adminController.js:83 | an empty sortBy falls back to the default field |
| Queries.ListSort | backend/controllers/adminController.js:83-84 | a listing sorts by sortBy, or by its default column when sortBy is empty (createdAt for users, name for stores at adminController.js:143-144), and descending exactly when order spells DESC in any case |
| Queries.SearchStores | backend/controllers/userController.js:9-15 | an empty search keeps all stores; otherwise exactly those whose name or address contains it |
| Queries.FilterUsers | backend/controllers/adminController.js:73-81 | a user is kept exactly when it has the requested role (or none is requested) and its name, email or address contains the search |
| Queries.ManagedStore | backend/models/index.js:7 | a user's managed store exists exactly when some store's ownerId is that user, and it is such a store |
| Queries.OwnerRating | backend/controllers/adminController.js:105-113 | storeRating is present only for a store owner whose managed store has ratings, and is then that store's average |
| Queries.OwnerRatingBounds | backend/controllers/adminController.js:109-111 | a present storeRating lies between 1.0 and 5.0 |
| Queries.ListUsers | backend/controllers/adminController.js:69-129 | exactly one row per matching user, in the filter's order, each the user without its password and with its owner-only storeRating; every matching user is listed, every listed row matches the filters and comes from a user; the sort is ListSort(q, "createdAt"): createdAt by default, descending exactly for DESC in any case |
| Queries.ListStoresAdmin | backend/controllers/adminController.js:131-176 | one row per matching store with its average, 0 for a store with no ratings, and the sort defaults to name |
| Queries.ListStoresForUser | backend/controllers/userController.js:5-55 | one row per matching store carrying its rating count and its rounded mean, 0 when it has none |
| Queries.StoreRowBounds | backend/controllers/userController.js:36-38 | a listed store with ratings shows a mean between 1.0 and 5.0 |
| Queries.DashboardStats | backend/controllers/adminController.js:5-19 | the statistics are the sizes of the three tables |
| Queries.SumTotalsIsCounts | backend/controllers/userController.js:46 | rows carrying each store's rating count sum to the per-store counts |
| Queries.StatsMatchListing | backend/controllers/adminController.js:9 | the admin rating total equals the sum of the listing's totalRatings when every rating's store exists |
| Queries.FindUser | backend/controllers/storeOwnerController.js:14-16 | a user is found exactly when one has the id |
| Queries.Entries | backend/controllers/storeOwnerController.js:32-37 | one entry per rating, in order, with its score, its updatedAt as date and its rater's name and email; a missing rater makes the handler fail |
| Queries.GetOwnerDashboard | backend/controllers/storeOwnerController.js:3-50 | the reply is 404 exactly when the caller owns no store; it is 500 exactly when the caller owns a store and one of its ratings names a missing user; otherwise it reports the store whose ownerId is the caller, the count and average of its ratings and, per rating in order, the score, the date and the rater's name and email |
| Queries.DashboardDelivered | backend/controllers/storeOwnerController.js:22-45 | with every rater present, an owner with a store gets the dashboard, and a non-empty one has an average between 1.0 and 5.0 |
| Validation.Check | backend/middleware/validation.js:4-18 | a validator adds one error with its field and message exactly when it fails |
| Validation.ChainErrors | backend/middleware/validation.js:3-18 | one error per failed validator: one Name entry if the name check fails, one Email entry if the email check fails, one Password entry per failed password check, one Address entry if the address check fails; entries grouped by field in chain order; the name entry carries its own message, all others "Invalid value"; none exactly when all pass |
| Validation.ChainErrorsUnique | backend/middleware/validation.js:3-18 | those counts, the chain order and the messages determine the list: any list that has them is the one the chains collect |
| Validation.ChainErrorsEnds | backend/middleware/validation.js:3-18 | the collected list starts with the name error exactly when the name check fails, and ends with the address error exactly when the address check fails |
| Validation.NameFirst | backend/middleware/validation.js:3-18 | in any list in chain order with the chains' messages, a name entry exists exactly when the list starts with the name error |
| Validation.AddressLast | backend/middleware/validation.js:3-18 | in any list in chain order with the chains' messages, an address entry exists exactly when the list ends with the address error |
| Validation.SignupErrors | backend/middleware/validation.js:3-18 | no errors exactly when the trimmed name has 20..60 characters, the email is valid, the untrimmed password has 8..16 characters with an A-Z letter and a special character, and the trimmed address has at most 400; at most six entries, one per rule |
| Validation.SignupErrorsEnds | backend/middleware/validation.js:3-18 | the name error comes first exactly when the trimmed name is out of range, and the address error last exactly when the trimmed address is too long |
| Validation.SignupErrorsCounts | backend/middleware/validation.js:3-18 | one name, email and address entry when that rule fails, one password entry per failed password rule (length, A-Z letter, special character), grouped by field in chain order, with the chains' messages |
| Validation.ValidateSignup | backend/middleware/validation.js:19-25 | a body reaches the handler exactly when every rule holds, with its name, email and address trimmed and its password untouched; otherwise 400 with the errors |
| Validation.ValidateLogin | backend/middleware/validation.js:28-38 | the request passes exactly when the email is valid and a password is present, with the email trimmed; otherwise one "Invalid value" entry for an invalid email, listed first, and one for a missing password, and nothing else |
| Validation.ValidatedSignupFitsUserRow | backend/models/User.js:10-36 | a body that passed the gate makes a user row that meets UserRowOk, the column check the user insert applies, whatever its id, digest and role |
| SignupPage.ValidateForm | frontend/src/pages/Signup.jsx:12-19 | null exactly when all checks pass; otherwise the first failing message, in the order name (untrimmed), password length, upper case, special character, address |
| SignupPage.FormPasswordPassesServer | frontend/src/pages/Signup.jsx:14-16 | every password the form accepts passes the server's password rules |
| SignupPage.ServerPasswordFormRejects | backend/middleware/validation.js:15 | the converse fails: "Abcdefg(" passes the server and is rejected by the form |
| SignupPage.PaddedNamePassesFormOnly | frontend/src/pages/Signup.jsx:13 | a 20-character name that starts with white space passes the form and fails the server's trimmed check |
| SignupPage.SignupView.constructor | frontend/src/pages/Signup.jsx:7-8 | the form starts empty with no error |
| SignupPage.SignupView.HandleSubmit | frontend/src/pages/Signup.jsx:21-32 | a failed check shows its message and makes no call; a successful signup navigates to /stores; a failed one shows the server's message or 'Failed to create account' |
| AdminPages.CreateUserFormError | frontend/src/pages/admin/AdminUsers.jsx:42-47 | the name check comes before the password check, and nothing is posted unless both hold |
| AdminPages.ToggleOrder | frontend/src/pages/admin/AdminUsers.jsx:90 | ASC becomes DESC and anything else ASC |
| AdminPages.ToggleTwice | frontend/src/pages/admin/AdminUsers.jsx:90 | two clicks restore ASC or DESC |
| AdminPages.ToggleReachesServer | frontend/src/pages/admin/AdminUsers.jsx:90 | the toggled value makes the server sort descending, and toggling again makes it sort ascending |
| AdminPages.RatingCell | frontend/src/pages/admin/AdminUsers.jsx:117 | the cell shows the rating only for a store owner with a present storeRating, and '-' otherwise |
| AdminPages.RatingCellOfListing | frontend/src/pages/admin/AdminUsers.jsx:117 | on a listed row the cell shows a rating exactly for a store owner whose managed store has ratings |
| AdminPages.AdminUsersView.constructor | frontend/src/pages/admin/AdminUsers.jsx:10-14 | the page starts with the blank form, role NORMAL_USER, order ASC and no error |
| AdminPages.AdminUsersView.HandleCreateUser | frontend/src/pages/admin/AdminUsers.jsx:38-57 | the error is cleared first. A failed check shows its message and posts nothing. Success closes the modal and resets the form to empty fields with role NORMAL_USER. Failure shows the server's message or 'Failed to create user' |
| AdminPages.AdminUsersView.ClickOrder | frontend/src/pages/admin/AdminUsers.jsx:90 | a click flips the order and changes nothing else |
| AdminPages.CreateStoreFormError | frontend/src/pages/admin/AdminStores.jsx:39-40 | 'Name too short' under 3 characters comes first, then 'Address max 400 chars'; nothing is posted unless both hold |
| AdminPages.AdminStoresView.constructor | frontend/src/pages/admin/AdminStores.jsx:11-13 | the page starts with every form field empty and no error |
| AdminPages.AdminStoresView.HandleCreateStore | frontend/src/pages/admin/AdminStores.jsx:35-50 | a failed check shows its message and posts nothing; success closes the modal and empties every field; any failure shows the one fixed message |
| StoreListPage.StarFilled | frontend/src/pages/user/UserStoreList.jsx:120 | a star button is filled exactly when its number is at most the card's rating; FilledCountIsRating counts them |
| StoreListPage.SubmitDisabled | frontend/src/pages/user/UserStoreList.jsx:136 | the submit button is disabled exactly when the store's draft is missing or 0 |
| StoreListPage.CurrentRating | frontend/src/pages/user/UserStoreList.jsx:96 | the draft if truthy, else the saved rating if truthy, else 0 |
| StoreListPage.FilledCountIsRating | frontend/src/pages/user/UserStoreList.jsx:116-120 | a rating of 0..5 fills exactly that many stars |
| StoreListPage.FilledBelow | frontend/src/pages/user/UserStoreList.jsx:120 | every star up to the rating is filled |
| StoreListPage.SelectShows | frontend/src/pages/user/UserStoreList.jsx:34-39 | choosing a star shows it, fills that many stars and enables submit for that store, and leaves other stores' drafts alone |
| StoreListPage.ClearedShowsSaved | frontend/src/pages/user/UserStoreList.jsx:54-58 | once a draft is removed, the card shows the saved rating, submit is disabled, and other drafts are unchanged |
| StoreListPage.StoreListView.constructor | frontend/src/pages/user/UserStoreList.jsx:13 | the draft map starts empty |
| StoreListPage.StoreListView.HandleSelectRating | frontend/src/pages/user/UserStoreList.jsx:34-39 | sets that store's draft only |
| StoreListPage.StoreListView.HandleSubmitClick | frontend/src/pages/user/UserStoreList.jsx:42-64 | with no (or zero) draft it warns and posts nothing. Otherwise it posts the draft. Success removes only that store's draft; failure keeps every draft and shows the server's message or the fallback |
| StoreListPage.SavedRatingHiddenAsSent | frontend/src/pages/user/UserStoreList.jsx:96 | with the listing as the server sends it, a card without a draft shows 0 even though the caller has a saved rating of 1..5 for the store |
| StoreListPage.MyScore | frontend/src/pages/user/UserStoreList.jsx:142 | the caller's saved score is that of its one row for the store, 0 when it has none |
| StoreListPage.ListStoresWithMine | backend/controllers/userController.js:40-47 | the corrected listing of the finding below: the rows these lines build, which carry no myRating, each with the caller's own score (MyScore) added |
| StoreListPage.SavedRatingShown | frontend/src/pages/user/UserStoreList.jsx:96 | with myRating sent, a card without a draft shows the caller's saved score |
| StoreListPage.SubmittedScoreShown | frontend/src/pages/user/UserStoreList.jsx:53-60 | after a successful submit and refresh, the card shows the submitted score |
| Routing.HomeFor | frontend/src/App.tsx:28-30 | ADMIN goes to /admin/dashboard, STORE_OWNER to /owner/dashboard, NORMAL_USER to /stores |
| Routing.PrivateRoute | frontend/src/App.tsx:19-34 | while loading, the placeholder shows. With no user, a redirect to /login. The outlet renders exactly when allowedRoles is absent or includes the role. Any other role goes to its own dashboard |
| Routing.PageAt | frontend/src/App.tsx:41-61 | a page is shown for a location exactly when its route matches it as react-router matches a leaf route: letters in either case, any number of trailing slashes |
| Routing.MatchesIffKey | frontend/src/App.tsx:43-60 | a route path matches a location exactly when the location, lower-cased and without trailing slashes, is that path |
| Routing.StripSlashesAt | frontend/src/App.tsx:43-60 | a location that is a path not ending in a slash followed by slashes is that path once the slashes are dropped |
| Routing.PageOfPath | frontend/src/App.tsx:43-60 | every route path leads back to its own page |
| Routing.PageAtOwnPath | frontend/src/App.tsx:43-60 | each page is shown at its own path |
| Routing.CaseAndSlashIgnored | frontend/src/App.tsx:55 | "/Stores" opens the store list and "/login/" the login page |
| Routing.AllowedOn | frontend/src/App.tsx:47-61 | admin pages allow only ADMIN, /stores only NORMAL_USER, /owner/dashboard only STORE_OWNER; /login and /signup are unguarded |
| Routing.Visit | frontend/src/App.tsx:43-64 | locations the /login or /signup route matches render, locations no route matches redirect to /login, and a guarded route goes through PrivateRoute with its allowed roles; a signed-in user, once loading ends, sees a page exactly when its route is public or allows that user's role |
| Routing.HomeIsAllowed | frontend/src/App.tsx:28-30 | each role's dashboard renders for that role |
| Routing.RedirectTargets | frontend/src/App.tsx:24-30 | a redirect goes either to the login page or to the signed-in user's own dashboard |
| Routing.NoRedirectLoop | frontend/src/App.tsx:24-30 | wherever a page redirects, the target renders for the same user |
| Routing.LandingFor | frontend/src/pages/Login.jsx:18-20 | ADMIN lands on /admin/dashboard, STORE_OWNER on /owner/dashboard, any other role on /stores |
| Routing.LandingIsHome | frontend/src/pages/Login.jsx:18-20 | the landing page is the route guard's dashboard for the role and renders for it |
| Routing.LoginView.constructor | frontend/src/pages/Login.jsx:9 | the page starts with no error |
| Routing.LoginView.HandleSubmit | frontend/src/pages/Login.jsx:13-24 | the error is cleared; success navigates to the role's landing page; any failure shows "Invalid email or password" |

## Left out

- Authentication is not part of this model, because the middleware and the handlers behind it are not among the modelled files. This covers the token codec, the `protect`/`authorize` middleware, and the login, signup and password-change handlers. The caller's id and role are parameters.
- Password hashing with bcrypt is a digest parameter.
- `normalizeEmail` is a library call: the validated email is only trimmed. The validator chains' `isEmail` verdict is a boolean parameter.
- SQL semantics are replaced by simpler rules:
  - a search is a case-sensitive substring test, so LIKE collation and `%`/`_` in the text are ignored;
  - a listing returns the sort it asks for, but rows stay in table order;
  - eager loading becomes lookups, and `sync({alter:true})` is not modelled.
- Floating point is replaced by integer tenths rounded half up. The string "0.0" and the number 0 are the same value.
- Concurrent requests are not modelled. Two simultaneous first ratings of one pair would hit the unique index as a 500. Only sequential calls are modelled.
- Scores are integers. A missing or non-numeric score passes the range check and fails later in the database; that path is not modelled.
- `isEmail`, which `User.create` and `Store.create` run as the models' email validator, is a library check. Tables.Database.CreateUser and Tables.Database.CreateStore take its verdict as the `emailOk` parameter. The address column's STRING(400) bound is checked on both tables and answers 500 when exceeded. The plain STRING (255) bound on names and emails is not modelled. A field missing from the body (`allowNull: false`) is not modelled.
- Text.UpperChar: only characters whose upper case is a single ASCII letter are mapped. JavaScript also changes other letters (`é` to `É`) and maps some to two letters (`ß` to `SS`). Neither can make a result equal `DESC`, the only comparison the handlers make.
- Text.ToUpper: keeps the length, where JavaScript's `toUpperCase` can lengthen a string (`ß` becomes `SS`). The result is exact only for comparing with `DESC`.
- Routing.PageAt: the location is matched as given. react-router's percent-decoding of the path and the browser's resolution of `.` and `..` segments are not modelled.
- Routing.Visit: inherits PageAt's matching, so percent-encoded or dotted locations are not modelled.
- Lengths are counted in `char`s, while JavaScript counts UTF-16 code units. A query parameter given as an array is not modelled.
- React rendering, debounce timers, axios, toasts other than their text, navigation side effects and the list refresh after a POST are not modelled. Neither are the display-only NavBar and dashboards, or the bootstrap in app.js.
- The application has no delete handler. `DeleteUser` and `DeleteStore` model what the associations in backend/models/index.js declare for deletions (cascade on ratings, SET NULL on the owner reference).
- Queries.ListUsers: rows follow the filter's (table) order, not the requested sort, because the database sorts them; the listing carries the requested sort.
- Queries.ListStoresAdmin: rows follow the search's order, not the requested sort.
- The store card's badge reads `store.overallRating`, which the listing does not send either. The badge is display-only and not modelled.

## Findings

| source | as written | input that shows it | evidently intended | confidence | as-written member | corrected member |
|---|---|---|---|---|---|---|
| frontend/src/pages/user/UserStoreList.jsx:96 | The card's rating falls back to `store.myRating`, but backend/controllers/userController.js:40-47 sends no such field, so the fallback is always undefined | A user with a saved 4-star rating for a store opens the list with no draft: the card shows 0 stars and no "Current recorded rating" line | The listing carries the caller's own score, and the card shows it when there is no draft | not executed | StoreListPage.SavedRatingHiddenAsSent | StoreListPage.SavedRatingShown |

=== FILE: admin_pages.dfy ===
/** The administrator's user and store pages: the checks the create forms make
    before posting, what a create does to the page's state, the ASC/DESC
    toggle and the owner-only rating cell of the user table. */
module AdminPages {
  import opened Wrappers
  import opened Schema
  import opened RatingRows
  import opened Queries

  /** A state change the page makes after a POST: what the server did. */
  datatype PostOutcome = PostOk | PostFailed(message: string)

  // ----- Users page -----

  /** The create-user form; `role` is the select's value. */
  datatype NewUserForm = NewUserForm(name: string, email: string, password: string, address: string, role: string)

  /** The form as the page starts it and resets it. */
  const BlankUserForm := NewUserForm("", "", "", "", "NORMAL_USER")

  const UserNameMsg := "Name must be between 20 and 60 characters"
  const UserPasswordMsg := "Password must be 8-16 characters"
  const CreateUserFailedMsg := "Failed to create user"

  /** `handleCreateUser`'s checks, name first, then password; `None` posts. */
  function CreateUserFormError(f: NewUserForm): (r: Option<string>)
    ensures r.None? <==> 20 <= |f.name| <= 60 && 8 <= |f.password| <= 16
    ensures r == Some(UserNameMsg) <==> !(20 <= |f.name| <= 60)
    ensures r == Some(UserPasswordMsg) <==> 20 <= |f.name| <= 60 && !(8 <= |f.password| <= 16)
  {
    if |f.name| < 20 || |f.name| > 60 then Some(UserNameMsg)
    else if |f.password| < 8 || |f.password| > 16 then Some(UserPasswordMsg)
    else None
  }

  /** The order button: ASC becomes DESC, anything else ASC. */
  function ToggleOrder(order: string): (r: string)
    // definition: the source's case table, stated case by case
    ensures r == "DESC" <==> order == "ASC"
    ensures r == "ASC" <==> order != "ASC"
  {
    if order == "ASC" then "DESC" else "ASC"
  }

  /** Two clicks restore either value the button shows. */
  lemma ToggleTwice(order: string)
    requires order == "ASC" || order == "DESC"
    ensures ToggleOrder(ToggleOrder(order)) == order
  {
  }

  /** The button's value reaches the listing query as its `order`: one click
      from ASC asks the server for a descending sort, another for ascending. */
  lemma ToggleReachesServer()
    ensures NormalizeOrder(ToggleOrder("ASC")) == Desc
    ensures NormalizeOrder(ToggleOrder(ToggleOrder("ASC"))) == Asc
  {
    assert SpellsDesc("DESC");
    assert !SpellsDesc("ASC");
  }

  /** The table's last cell: the store rating for a store owner whose rating
      is present (a non-empty `toFixed` string is truthy), `None` for '-'. */
  function RatingCell(row: UserRow): (cell: Option<int>)
    ensures cell.Some? <==> row.role == StoreOwner && row.storeRating.Some?
    ensures cell.Some? ==> cell == row.storeRating
  {
    if row.role == StoreOwner && row.storeRating.Some? then row.storeRating else None
  }

  /** On a listed row the cell shows a rating exactly for a store owner whose
      managed store has ratings, and then that store's rounded mean. */
  lemma RatingCellOfListing(users: seq<User>, stores: seq<Store>, ratings: seq<Rating>, q: ListQuery, i: nat)
    requires i < |ListUsers(users, stores, ratings, q).rows|
    ensures var row := ListUsers(users, stores, ratings, q).rows[i];
      && (RatingCell(row).Some? <==>
           exists k :: 0 <= k < |users| && row == ToUserRow(users[k], stores, ratings)
             && users[k].role == StoreOwner && ManagedStore(stores, users[k].id).Some?
             && StoreCount(ratings, ManagedStore(stores, users[k].id).value.id) > 0)
  {
    var row := ListUsers(users, stores, ratings, q).rows[i];
    var k :| 0 <= k < |users| && row == ToUserRow(users[k], stores, ratings);
    assert RatingCell(row) == OwnerRating(users[k], stores, ratings);
  }

  /** The users page's state. */
  class AdminUsersView {
    var error: string
    var showModal: bool
    var newUser: NewUserForm
    var order: string

    constructor()
      ensures error == "" && !showModal && newUser == BlankUserForm && order == "ASC"
    {
      error := "";
      showModal := false;
      newUser := BlankUserForm;
      order := "ASC";
    }

    /** `handleCreateUser`: clears the error, then either shows the first
        failed check without posting, or posts the form; `outcome` is what the
        server did. Success closes the modal and resets the form; failure
        shows the server's message or the fallback and keeps the form. */
    method HandleCreateUser(outcome: PostOutcome) returns (posted: bool)
      modifies this
      ensures posted <==> CreateUserFormError(old(newUser)).None?
      ensures order == old(order)
      ensures !posted ==>
        && error == CreateUserFormError(old(newUser)).value
        && showModal == old(showModal) && newUser == old(newUser)
      ensures posted && outcome.PostOk? ==> error == "" && !showModal && newUser == BlankUserForm
      ensures posted && outcome.PostFailed? ==>
        && error == (if outcome.message != "" then outcome.message else CreateUserFailedMsg)
        && showModal == old(showModal) && newUser == old(newUser)
    {
      error := "";
      var problem := CreateUserFormError(newUser);
      if problem.Some? {
        error := problem.value;
        return false;
      }
      posted := true;
      match outcome {
        case PostOk =>
          showModal := false;
          newUser := BlankUserForm;
        case PostFailed(message) =>
          error := if message != "" then message else CreateUserFailedMsg;
      }
    }

    /** The order button's click. */
    method ClickOrder()
      modifies this
      ensures order == ToggleOrder(old(order)) && order != old(order)
      ensures error == old(error) && showModal == old(showModal) && newUser == old(newUser)
    {
      order := ToggleOrder(order);
    }
  }

  // ----- Stores page -----

  /** The create-store form; `ownerId` is the select's value, "" for none. */
  datatype NewStoreForm = NewStoreForm(name: string, email: string, address: string, ownerId: string)

  const BlankStoreForm := NewStoreForm("", "", "", "")

  const StoreNameMsg := "Name too short"
  const StoreAddressMsg := "Address max 400 chars"
  const CreateStoreFailedMsg := "Failed to create store. Ensure email is unique."

  /** `handleCreateStore`'s checks, name first, then address; `None` posts. */
  function CreateStoreFormError(f: NewStoreForm): (r: Option<string>)
    ensures r.None? <==> 3 <= |f.name| && |f.address| <= 400
    ensures r == Some(StoreNameMsg) <==> |f.name| < 3
    ensures r == Some(StoreAddressMsg) <==> 3 <= |f.name| && |f.address| > 400
  {
    if |f.name| < 3 then Some(StoreNameMsg)
    else if |f.address| > 400 then Some(StoreAddressMsg)
    else None
  }

  /** The stores page's state. */
  class AdminStoresView {
    var error: string
    var showModal: bool
    var newStore: NewStoreForm

    constructor()
      ensures error == "" && !showModal && newStore == BlankStoreForm
    {
      error := "";
      showModal := false;
      newStore := BlankStoreForm;
    }

    /** `handleCreateStore`: clears the error, then either shows the first
        failed check without posting, or posts; success closes the modal and
        empties every field, any failure shows one fixed message whatever the
        server said. */
    method HandleCreateStore(postOk: bool) returns (posted: bool)
      modifies this
      ensures posted <==> CreateStoreFormError(old(newStore)).None?
      ensures !posted ==>
        && error == CreateStoreFormError(old(newStore)).value
        && showModal == old(showModal) && newStore == old(newStore)
      ensures posted && postOk ==> error == "" && !showModal && newStore == BlankStoreForm
      ensures posted && !postOk ==>
        error == CreateStoreFailedMsg && showModal == old(showModal) && newStore == old(newStore)
    {
      error := "";
      var problem := CreateStoreFormError(newStore);
      if problem.Some? {
        error := problem.value;
        return false;
      }
      posted := true;
      if postOk {
        showModal := false;
        newStore := BlankStoreForm;
      } else {
        error := CreateStoreFailedMsg;
      }
    }
  }
}

=== FILE: aggregate.dfy ===
/** The rating aggregate every controller computes: the sum of the scores
    divided by their count and rendered with `toFixed(1)`, or zero when there
    are no scores. The mean is kept in integer tenths (4.3 is 43); `toFixed`
    picks the larger of two equally near candidates, so halves round up. */
module Aggregate {

  /** `scores.reduce((acc, s) => acc + s, 0)`, folding from the left; it
      agrees with adding the scores up from the front. */
  function Sum(scores: seq<int>): (s: int)
    ensures s == SumFromFront(scores)
  {
    if scores == [] then 0
    else
      var init := scores[..|scores| - 1];
      FrontSplitLast(scores);
      Sum(init) + scores[|scores| - 1]
  }

  /** The sum taken from the front: the first score plus the sum of the rest. */
  function SumFromFront(scores: seq<int>): int {
    if scores == [] then 0 else scores[0] + SumFromFront(scores[1..])
  }

  /** Adding from the front, the last score can be split off. */
  lemma {:induction false} FrontSplitLast(scores: seq<int>)
    requires scores != []
    ensures SumFromFront(scores) == SumFromFront(scores[..|scores| - 1]) + scores[|scores| - 1]
  {
    if |scores| > 1 {
      var rest := scores[1..];
      FrontSplitLast(rest);
      assert rest[..|rest| - 1] == scores[..|scores| - 1][1..];
    }
  }

  /** Every score is a valid rating score. */
  predicate AllScoresOk(scores: seq<int>) {
    forall i :: 0 <= i < |scores| ==> 1 <= scores[i] <= 5
  }

  /** `(sum / count).toFixed(1)` in tenths: the integer `t` nearest to
      10 * sum / count, the larger one when two are equally near, that is
      t - 1/2 <= 10 * sum / count < t + 1/2. */
  function RoundTenths(sum: int, count: int): (t: int)
    requires count > 0
    ensures 2 * count * t <= 20 * sum + count < 2 * count * t + 2 * count
  {
    var n := 20 * sum + count;
    var d := 2 * count;
    var t := n / d;
    assert n == d * t + n % d;
    t
  }

  /** The rounding is the only integer with that property. */
  lemma RoundTenthsUnique(sum: int, count: int, t: int)
    requires count > 0
    requires 2 * count * t <= 20 * sum + count < 2 * count * t + 2 * count
    ensures RoundTenths(sum, count) == t
  {
    var r := RoundTenths(sum, count);
    MulCancel(2 * count, r, t + 1);
    MulCancel(2 * count, t, r + 1);
  }

  /** A positive factor can be cancelled from a strict inequality. */
  lemma MulCancel(k: int, a: int, b: int)
    requires k > 0 && k * a < k * b
    ensures a < b
  {
    if a >= b {
      MulMonotone(k, b, a);
    }
  }

  lemma MulMonotone(k: int, a: int, b: int)
    requires k >= 0 && a <= b
    ensures k * a <= k * b
  {
  }

  /** The aggregate of a list of scores in tenths: the rounded mean, or 0 for an
      empty list (the `"0.0"`, `0` and `null` defaults of the controllers). */
  function AverageTenths(scores: seq<int>): (t: int)
    ensures scores == [] ==> t == 0
    ensures scores != [] ==>
      2 * |scores| * t <= 20 * Sum(scores) + |scores| < 2 * |scores| * t + 2 * |scores|
  {
    if scores == [] then 0 else RoundTenths(Sum(scores), |scores|)
  }

  /** Scores in 1..5 sum to between count and 5 * count. */
  lemma {:induction false} SumBounds(scores: seq<int>)
    requires AllScoresOk(scores)
    ensures |scores| <= Sum(scores) <= 5 * |scores|
  {
    if scores != [] {
      SumBounds(scores[..|scores| - 1]);
    }
  }

  /** A non-empty aggregate lies between 1.0 and 5.0. */
  lemma AverageBounds(scores: seq<int>)
    requires AllScoresOk(scores) && scores != []
    ensures 10 <= AverageTenths(scores) <= 50
  {
    SumBounds(scores);
    var n := |scores|;
    var t := AverageTenths(scores);
    if t < 10 {
      MulMonotone(2 * n, t + 1, 10);
    }
    if t > 50 {
      MulMonotone(2 * n, 51, t);
    }
  }

  /** When the mean has at most one decimal it is reported exactly. */
  lemma AverageExact(scores: seq<int>, t: int)
    requires scores != [] && 10 * Sum(scores) == t * |scores|
    ensures AverageTenths(scores) == t
  {
    var n := |scores|;
    ExactBracket(Sum(scores), n, t);
    RoundTenthsUnique(Sum(scores), n, t);
  }

  /** An exact mean t lies within half a tenth of itself. */
  lemma ExactBracket(sum: int, n: int, t: int)
    requires n > 0 && 10 * sum == t * n
    ensures 2 * n * t <= 20 * sum + n < 2 * n * t + 2 * n
  {
  }

  /** A single score k is reported as k.0. */
  lemma SingleScore(k: int)
    ensures AverageTenths([k]) == 10 * k
  {
    assert Sum([k]) == k by { assert [k][..0] == []; }
    AverageExact([k], 10 * k);
  }

  /** The mean 4.25 of {5, 5, 4, 3} is reported as 4.3: ties round up. */
  lemma TieRoundsUp()
    ensures AverageTenths([5, 5, 4, 3]) == 43
  {
    assert Sum([5, 5, 4, 3]) == 17 by {
      assert [5, 5, 4, 3][..3] == [5, 5, 4];
      assert [5, 5, 4][..2] == [5, 5];
      assert [5, 5][..1] == [5];
      assert [5][..0] == [];
    }
    RoundTenthsUnique(17, 4, 43);
  }

  /** Appending one score adds it to the sum. */
  lemma SumAppend(scores: seq<int>, x: int)
    ensures Sum(scores + [x]) == Sum(scores) + x
  {
    assert (scores + [x])[..|scores|] == scores;
  }
}

=== FILE: queries.dfy ===
/** The read-only handlers of the controllers: the admin's user and store
    listings and dashboard counts, the normal user's store listing and the
    store owner's dashboard. Sorting itself is done by the database; the model
    computes the sort specification the handlers hand to it. */
module Queries {
  import opened Wrappers
  import opened Seqs
  import opened Text
  import opened Schema
  import opened Aggregate
  import opened RatingRows

  datatype SortOrder = Asc | Desc

  /** The `order: [[sortField, sortOrder]]` clause of a listing query. */
  datatype SortSpec = SortSpec(field: string, order: SortOrder)

  /** The query string of a listing; an absent parameter is the empty string
      (both are falsy). */
  datatype ListQuery = ListQuery(sortBy: string, order: string, role: string, search: string)

  /** The spellings that upper-case to `DESC`. */
  predicate SpellsDesc(order: string) {
    && |order| == 4
    && (order[0] == 'd' || order[0] == 'D')
    && (order[1] == 'e' || order[1] == 'E')
    && (order[2] == 's' || order[2] == 'S' || order[2] == '\U{017F}')
    && (order[3] == 'c' || order[3] == 'C')
  }

  /** `order && order.toUpperCase() === 'DESC' ? 'DESC' : 'ASC'`: descending
      exactly for the spellings of DESC in any case. */
  function NormalizeOrder(order: string): (r: SortOrder)
    ensures r == Desc <==> SpellsDesc(order)
  {
    UpperIsDesc(order);
    if order != "" && ToUpper(order) == "DESC" then Desc else Asc
  }

  /** A non-empty string upper-cases to `DESC` exactly when it spells DESC in
      some mix of cases, with the long s for `s`. */
  lemma UpperIsDesc(order: string)
    ensures order != "" && ToUpper(order) == "DESC" <==> SpellsDesc(order)
  {
    if SpellsDesc(order) {
      assert ToUpper(order) == "DESC";
    }
    if order != "" && ToUpper(order) == "DESC" {
      assert ToUpper(order)[0] == 'D' && ToUpper(order)[1] == 'E';
      assert ToUpper(order)[2] == 'S' && ToUpper(order)[3] == 'C';
    }
  }

  /** The sort field: `sortBy || fallback`. */
  function SortField(sortBy: string, fallback: string): (f: string)
    // definition: the handler's default for an empty sortBy
    ensures sortBy != "" ==> f == sortBy
    ensures sortBy == "" ==> f == fallback
  {
    if sortBy == "" then fallback else sortBy
  }

  /** The sort a listing asks for: by `sortBy`, or by the handler's default
      column (`createdAt` for users, `name` for stores) when it is empty, and
      descending exactly when asked for DESC in any case. */
  function ListSort(q: ListQuery, fallback: string): (spec: SortSpec)
    ensures spec.field == (if q.sortBy == "" then fallback else q.sortBy)
    ensures spec.order == Desc <==> SpellsDesc(q.order)
  {
    SortSpec(SortField(q.sortBy, fallback), NormalizeOrder(q.order))
  }

  /** The search clause of the store listings: name or address contains it. */
  predicate StoreMatches(s: Store, search: string) {
    Contains(s.name, search) || Contains(s.address, search)
  }

  /** The stores a listing shows: all of them for an empty search, otherwise
      those whose name or address contains the text. */
  function SearchStores(stores: seq<Store>, search: string): (r: seq<Store>)
    ensures search == "" ==> r == stores
    ensures forall s :: s in r <==> s in stores && (search == "" || StoreMatches(s, search))
  {
    if search == "" then stores
    else
      var r := Filter(stores, (s: Store) => StoreMatches(s, search));
      assert forall s :: s in stores && StoreMatches(s, search) ==> s in r by {
        forall s | s in stores && StoreMatches(s, search) ensures s in r {
          var i :| 0 <= i < |stores| && stores[i] == s;
        }
      }
      r
  }

  /** The role clause of the user listing: no filter for the empty string. */
  predicate RoleMatches(r: Role, role: string) {
    role == "" || RoleName(r) == role
  }

  /** The search clause of the user listing: name, email or address. */
  predicate UserSearchMatches(name: string, email: string, address: string, search: string) {
    search == "" || Contains(name, search) || Contains(email, search) || Contains(address, search)
  }

  predicate UserMatches(u: User, role: string, search: string) {
    RoleMatches(u.role, role) && UserSearchMatches(u.name, u.email, u.address, search)
  }

  /** The users a listing shows. */
  function FilterUsers(users: seq<User>, role: string, search: string): (r: seq<User>)
    ensures forall u :: u in r <==> u in users && UserMatches(u, role, search)
  {
    var r := Filter(users, (u: User) => UserMatches(u, role, search));
    assert forall u :: u in users && UserMatches(u, role, search) ==> u in r by {
      forall u | u in users && UserMatches(u, role, search) ensures u in r {
        var i :| 0 <= i < |users| && users[i] == u;
      }
    }
    r
  }

  /** `user.managedStore`: the store whose owner reference is the user (the
      first one in table order should there be several). */
  function ManagedStore(stores: seq<Store>, userId: int): (r: Option<Store>)
    ensures r.Some? <==> exists i :: 0 <= i < |stores| && stores[i].ownerId == Some(userId)
    ensures r.Some? ==> r.value in stores && r.value.ownerId == Some(userId)
  {
    if stores == [] then None
    else if stores[0].ownerId == Some(userId) then Some(stores[0])
    else
      var r := ManagedStore(stores[1..], userId);
      assert forall i :: 1 <= i < |stores| ==> stores[i] == stores[1..][i - 1];
      r
  }

  /** The `storeRating` of a user row: the aggregate of the managed store for a
      store owner whose store has ratings, and null otherwise. */
  function OwnerRating(u: User, stores: seq<Store>, ratings: seq<Rating>): (r: Option<int>)
    ensures r.Some? <==>
      u.role == StoreOwner && ManagedStore(stores, u.id).Some?
      && StoreCount(ratings, ManagedStore(stores, u.id).value.id) > 0
    ensures r.Some? ==> r.value == StoreAverage(ratings, ManagedStore(stores, u.id).value.id)
  {
    if u.role != StoreOwner then None
    else match ManagedStore(stores, u.id)
      case None => None
      case Some(s) =>
        if StoreCount(ratings, s.id) > 0 then Some(StoreAverage(ratings, s.id)) else None
  }

  /** A store owner's reported rating lies between 1.0 and 5.0. */
  lemma OwnerRatingBounds(u: User, stores: seq<Store>, ratings: seq<Rating>)
    requires forall i :: 0 <= i < |ratings| ==> ScoreOk(ratings[i].score)
    requires OwnerRating(u, stores, ratings).Some?
    ensures 10 <= OwnerRating(u, stores, ratings).value <= 50
  {
    StoreAverageBounds(ratings, ManagedStore(stores, u.id).value.id);
  }

  /** A row of the admin user listing: the password column is excluded. */
  datatype UserRow = UserRow(id: int, name: string, email: string, address: string,
                             role: Role, storeRating: Option<int>)

  function ToUserRow(u: User, stores: seq<Store>, ratings: seq<Rating>): UserRow {
    UserRow(u.id, u.name, u.email, u.address, u.role, OwnerRating(u, stores, ratings))
  }

  datatype UserListing = UserListing(sort: SortSpec, rows: seq<UserRow>)

  /** `getAllUsers`: the users passing the role and search clauses, each with
      its owner-only rating, and the sort the query asks for. */
  function ListUsers(users: seq<User>, stores: seq<Store>, ratings: seq<Rating>, q: ListQuery)
    : (l: UserListing)
    ensures l.sort == ListSort(q, "createdAt")
    ensures l.sort.field == (if q.sortBy == "" then "createdAt" else q.sortBy)
    ensures l.sort.order == Desc <==> SpellsDesc(q.order)
    // one row per matching user
    ensures |l.rows| == |FilterUsers(users, q.role, q.search)|
    ensures forall i :: 0 <= i < |l.rows| ==>
      l.rows[i] == ToUserRow(FilterUsers(users, q.role, q.search)[i], stores, ratings)
    ensures forall u :: u in users && UserMatches(u, q.role, q.search) ==>
      ToUserRow(u, stores, ratings) in l.rows
    ensures forall i :: 0 <= i < |l.rows| ==>
      && RoleMatches(l.rows[i].role, q.role)
      && UserSearchMatches(l.rows[i].name, l.rows[i].email, l.rows[i].address, q.search)
      && (l.rows[i].storeRating.Some? ==> l.rows[i].role == StoreOwner)
      && exists k :: 0 <= k < |users| && l.rows[i] == ToUserRow(users[k], stores, ratings)
  {
    var us := FilterUsers(users, q.role, q.search);
    var rows := seq(|us|, i requires 0 <= i < |us| => ToUserRow(us[i], stores, ratings));
    assert forall u :: u in us ==> ToUserRow(u, stores, ratings) in rows by {
      forall u | u in us ensures ToUserRow(u, stores, ratings) in rows {
        var i :| 0 <= i < |us| && us[i] == u;
        assert rows[i] == ToUserRow(u, stores, ratings);
      }
    }
    forall i | 0 <= i < |rows|
      ensures exists k :: 0 <= k < |users| && rows[i] == ToUserRow(users[k], stores, ratings)
    {
      assert us[i] in users;
      var k :| 0 <= k < |users| && users[k] == us[i];
    }
    UserListing(ListSort(q, "createdAt"), rows)
  }

  /** A row of the admin store listing. */
  datatype AdminStoreRow = AdminStoreRow(id: int, name: string, email: string, address: string, rating: int)

  datatype AdminStoreListing = AdminStoreListing(sort: SortSpec, rows: seq<AdminStoreRow>)

  /** `adminController.getAllStores`: the matching stores with their rounded
      mean rating, 0 for a store nobody rated. */
  function ListStoresAdmin(stores: seq<Store>, ratings: seq<Rating>, q: ListQuery): (l: AdminStoreListing)
    ensures l.sort == ListSort(q, "name")
    ensures |l.rows| == |SearchStores(stores, q.search)|
    ensures forall i :: 0 <= i < |l.rows| ==>
      var s := SearchStores(stores, q.search)[i];
      && l.rows[i] == AdminStoreRow(s.id, s.name, s.email, s.address, StoreAverage(ratings, s.id))
      && (StoreCount(ratings, s.id) == 0 ==> l.rows[i].rating == 0)
  {
    var ss := SearchStores(stores, q.search);
    AdminStoreListing(ListSort(q, "name"),
      seq(|ss|, i requires 0 <= i < |ss| =>
        AdminStoreRow(ss[i].id, ss[i].name, ss[i].email, ss[i].address, StoreAverage(ratings, ss[i].id))))
  }

  /** A row of the normal user's store listing. */
  datatype StoreRow = StoreRow(id: int, name: string, email: string, address: string,
                               rating: int, totalRatings: nat)

  datatype StoreListing = StoreListing(sort: SortSpec, rows: seq<StoreRow>)

  function ToStoreRow(s: Store, ratings: seq<Rating>): StoreRow {
    StoreRow(s.id, s.name, s.email, s.address, StoreAverage(ratings, s.id), StoreCount(ratings, s.id))
  }

  /** `userController.getAllStores`: the matching stores, each with its rating
      count and rounded mean ("0.0" when it has none). */
  function ListStoresForUser(stores: seq<Store>, ratings: seq<Rating>, q: ListQuery): (l: StoreListing)
    ensures l.sort == ListSort(q, "name")
    ensures |l.rows| == |SearchStores(stores, q.search)|
    ensures forall i :: 0 <= i < |l.rows| ==>
      var s := SearchStores(stores, q.search)[i];
      && l.rows[i].id == s.id && l.rows[i].name == s.name
      && l.rows[i].email == s.email && l.rows[i].address == s.address
      && l.rows[i].totalRatings == |RatingsOfStore(ratings, s.id)|
      && l.rows[i].rating == AverageTenths(ScoresOf(RatingsOfStore(ratings, s.id)))
  {
    var ss := SearchStores(stores, q.search);
    StoreListing(ListSort(q, "name"), seq(|ss|, i requires 0 <= i < |ss| => ToStoreRow(ss[i], ratings)))
  }

  /** Every rating in a listed store row of a valid table is between 1.0 and
      5.0 when the store has ratings. */
  lemma StoreRowBounds(stores: seq<Store>, ratings: seq<Rating>, q: ListQuery, i: nat)
    requires forall k :: 0 <= k < |ratings| ==> ScoreOk(ratings[k].score)
    requires i < |ListStoresForUser(stores, ratings, q).rows|
    requires ListStoresForUser(stores, ratings, q).rows[i].totalRatings > 0
    ensures 10 <= ListStoresForUser(stores, ratings, q).rows[i].rating <= 50
  {
    StoreAverageBounds(ratings, SearchStores(stores, q.search)[i].id);
  }

  /** The sum of the `totalRatings` column of a listing. */
  function SumTotals(rows: seq<StoreRow>): nat {
    if rows == [] then 0 else SumTotals(rows[..|rows| - 1]) + rows[|rows| - 1].totalRatings
  }

  /** The counts `getDashboardStats` reports. */
  datatype Stats = Stats(totalUsers: nat, totalStores: nat, totalRatings: nat)

  /** `getDashboardStats`: the sizes of the three tables. */
  function DashboardStats(users: seq<User>, stores: seq<Store>, ratings: seq<Rating>): (s: Stats)
    // definition: the three counts the handler reports
    ensures s.totalUsers == |users| && s.totalStores == |stores| && s.totalRatings == |ratings|
  {
    Stats(|users|, |stores|, |ratings|)
  }

  /** Rows that carry each store's rating count, in store order, sum to the
      per-store counts. */
  lemma {:induction false} SumTotalsIsCounts(stores: seq<Store>, ratings: seq<Rating>, rows: seq<StoreRow>)
    requires |rows| == |stores|
    requires forall i :: 0 <= i < |rows| ==> rows[i].totalRatings == StoreCount(ratings, stores[i].id)
    ensures SumTotals(rows) == CountsOver(stores, ratings)
  {
    if stores != [] {
      var n := |stores| - 1;
      SumTotalsIsCounts(stores[..n], ratings, rows[..n]);
    }
  }

  /** The admin dashboard's rating total equals the sum of the per-store
      `totalRatings` of the (unfiltered) store listing, as long as every rating
      belongs to a listed store: no aggregate diverges from the table. */
  lemma StatsMatchListing(users: seq<User>, stores: seq<Store>, ratings: seq<Rating>)
    requires DistinctBy(stores, StoreId)
    requires forall i :: 0 <= i < |ratings| ==> HasStore(stores, ratings[i].storeId)
    ensures DashboardStats(users, stores, ratings).totalRatings
            == SumTotals(ListStoresForUser(stores, ratings, ListQuery("", "", "", "")).rows)
  {
    SumTotalsIsCounts(stores, ratings, ListStoresForUser(stores, ratings, ListQuery("", "", "", "")).rows);
    CountsPartitionTable(stores, ratings);
  }

  /** One line of the owner's rating list. */
  datatype RatingEntry = RatingEntry(userName: string, email: string, score: int, date: int)

  /** The owner dashboard body. */
  datatype Dashboard = Dashboard(storeName: string, address: string, averageRating: int,
                                 totalRatings: nat, ratings: seq<RatingEntry>)

  /** The reply of `getOwnerDashboard`. */
  datatype DashboardReply = NoStore | DashboardOk(body: Dashboard) | DashboardServerError {
    function Status(): int {
      match this
      case NoStore => 404
      case DashboardOk(_) => 200
      case DashboardServerError => 500
    }
  }

  /** The user row with the given id, if any. */
  function FindUser(users: seq<User>, id: int): (r: Option<User>)
    ensures r.Some? <==> HasUser(users, id)
    ensures r.Some? ==> r.value in users && r.value.id == id
  {
    if users == [] then None
    else if users[0].id == id then Some(users[0])
    else
      var r := FindUser(users[1..], id);
      assert forall i :: 1 <= i < |users| ==> users[i] == users[1..][i - 1];
      r
  }

  /** The rating list with each rater's name and email (`r.User.name`); a
      rating whose user is missing makes the handler throw. */
  function Entries(rs: seq<Rating>, users: seq<User>): (r: Option<seq<RatingEntry>>)
    ensures r.Some? <==> forall i :: 0 <= i < |rs| ==> HasUser(users, rs[i].userId)
    ensures r.Some? ==> |r.value| == |rs| && forall i :: 0 <= i < |rs| ==>
      && r.value[i].score == rs[i].score && r.value[i].date == rs[i].updatedAt
      && r.value[i].userName == FindUser(users, rs[i].userId).value.name
      && r.value[i].email == FindUser(users, rs[i].userId).value.email
  {
    if rs == [] then Some([])
    else match FindUser(users, rs[0].userId)
      case None => None
      case Some(u) =>
        match Entries(rs[1..], users)
        case None =>
          assert exists i :: 1 <= i < |rs| && !HasUser(users, rs[i].userId) by {
            var j :| 0 <= j < |rs[1..]| && !HasUser(users, rs[1..][j].userId);
            assert rs[j + 1] == rs[1..][j];
          }
          None
        case Some(tail) =>
          assert forall i :: 1 <= i < |rs| ==> rs[i] == rs[1..][i - 1];
          Some([RatingEntry(u.name, u.email, rs[0].score, rs[0].updatedAt)] + tail)
  }

  /** `getOwnerDashboard` for the caller `ownerId`: 404 without a managed store;
      500 when a rating's user is missing (`r.User.name` throws); otherwise the
      store, its aggregate and one entry per rating with the rater's name and
      email. */
  function GetOwnerDashboard(users: seq<User>, stores: seq<Store>, ratings: seq<Rating>, ownerId: int)
    : (r: DashboardReply)
    ensures r == NoStore <==> ManagedStore(stores, ownerId).None?
    ensures r == DashboardServerError <==>
      && ManagedStore(stores, ownerId).Some?
      && var rs := RatingsOfStore(ratings, ManagedStore(stores, ownerId).value.id);
         exists i :: 0 <= i < |rs| && !HasUser(users, rs[i].userId)
    ensures r.DashboardOk? ==>
      var s := ManagedStore(stores, ownerId).value;
      var rs := RatingsOfStore(ratings, s.id);
      && s.ownerId == Some(ownerId)
      && r.body.storeName == s.name && r.body.address == s.address
      && r.body.totalRatings == |rs|
      && r.body.averageRating == AverageTenths(ScoresOf(rs))
      && |r.body.ratings| == |rs|
      && forall i :: 0 <= i < |rs| ==>
           && r.body.ratings[i].score == rs[i].score && r.body.ratings[i].date == rs[i].updatedAt
           && r.body.ratings[i].userName == FindUser(users, rs[i].userId).value.name
           && r.body.ratings[i].email == FindUser(users, rs[i].userId).value.email
  {
    match ManagedStore(stores, ownerId)
    case None => NoStore
    case Some(s) =>
      var rs := RatingsOfStore(ratings, s.id);
      match Entries(rs, users)
      case None => DashboardServerError
      case Some(entries) =>
        DashboardOk(Dashboard(s.name, s.address, StoreAverage(ratings, s.id), |rs|, entries))
  }

  /** With every rating's user present, an owner with a store always gets the
      dashboard, and a non-empty one reports a mean between 1.0 and 5.0. */
  lemma DashboardDelivered(users: seq<User>, stores: seq<Store>, ratings: seq<Rating>, ownerId: int)
    requires forall i :: 0 <= i < |ratings| ==>
      HasUser(users, ratings[i].userId) && ScoreOk(ratings[i].score)
    requires ManagedStore(stores, ownerId).Some?
    ensures GetOwnerDashboard(users, stores, ratings, ownerId).DashboardOk?
    ensures var b := GetOwnerDashboard(users, stores, ratings, ownerId).body;
      b.totalRatings > 0 ==> 10 <= b.averageRating <= 50
  {
    var s := ManagedStore(stores, ownerId).value;
    var rs := RatingsOfStore(ratings, s.id);
    forall i | 0 <= i < |rs| ensures HasUser(users, rs[i].userId) {
      assert rs[i] in ratings;
    }
    if |rs| > 0 {
      StoreAverageBounds(ratings, s.id);
    }
  }
}

=== FILE: rating_rows.dfy ===
/** Views of the ratings table used by the upsert and by every aggregate:
    the rows of one store, the row of one (user, store) pair, their scores,
    and the two table scans (`Store.findByPk`, `Rating.findOne`). */
module RatingRows {
  import opened Wrappers
  import opened Seqs
  import opened Schema
  import opened Aggregate

  /** The ratings of one store, in table order (`store.Ratings`). */
  function RatingsOfStore(ratings: seq<Rating>, storeId: int): seq<Rating> {
    Filter(ratings, (r: Rating) => r.storeId == storeId)
  }

  /** The rows of one (user, store) pair. */
  function RowsFor(ratings: seq<Rating>, userId: int, storeId: int): seq<Rating> {
    Filter(ratings, (r: Rating) => RatingKey(r) == (userId, storeId))
  }

  /** The scores of a list of ratings, in order. */
  function ScoresOf(rs: seq<Rating>): (scores: seq<int>)
    ensures |scores| == |rs|
    ensures forall i :: 0 <= i < |rs| ==> scores[i] == rs[i].score
  {
    if rs == [] then [] else [rs[0].score] + ScoresOf(rs[1..])
  }

  /** The number of ratings a store has (`ratings.length`): at most the table
      size. */
  function StoreCount(ratings: seq<Rating>, storeId: int): (c: nat)
    ensures c <= |ratings|
  {
    |RatingsOfStore(ratings, storeId)|
  }

  /** A store's rating count is 0 exactly when no row names the store. */
  lemma StoreCountZero(ratings: seq<Rating>, storeId: int)
    ensures StoreCount(ratings, storeId) == 0 <==>
      forall i :: 0 <= i < |ratings| ==> ratings[i].storeId != storeId
  {
    var rs := RatingsOfStore(ratings, storeId);
    assert rs != [] ==> rs[0] in ratings;
  }

  /** The aggregate of one store in tenths: 0 when it has no ratings,
      otherwise the mean of its scores rounded half up. */
  function StoreAverage(ratings: seq<Rating>, storeId: int): (a: int)
    ensures StoreCount(ratings, storeId) == 0 ==> a == 0
    ensures var c := StoreCount(ratings, storeId);
      var sum := Sum(ScoresOf(RatingsOfStore(ratings, storeId)));
      c > 0 ==> 2 * c * a <= 20 * sum + c < 2 * c * a + 2 * c
  {
    AverageTenths(ScoresOf(RatingsOfStore(ratings, storeId)))
  }

  /** The row `r` after `existingRating.score = score; save()`: Sequelize
      writes (and stamps `updatedAt`) only when the score actually changes. */
  function Rescored(r: Rating, score: int, now: int): (r': Rating)
    ensures r'.id == r.id && RatingKey(r') == RatingKey(r) && r'.score == score
    ensures r.score == score ==> r' == r
  {
    if r.score == score then r else r.(score := score, updatedAt := now)
  }

  /** `Store.findByPk(id)`: a scan of the stores table. */
  method FindStore(stores: seq<Store>, id: int) returns (found: Option<Store>)
    ensures found.Some? <==> HasStore(stores, id)
    ensures found.Some? ==> found.value in stores && found.value.id == id
  {
    var i := 0;
    while i < |stores|
      invariant 0 <= i <= |stores|
      invariant forall k :: 0 <= k < i ==> stores[k].id != id
    {
      if stores[i].id == id {
        return Some(stores[i]);
      }
      i := i + 1;
    }
    return None;
  }

  /** `Rating.findOne({ where: { UserId, StoreId } })`: the position of the
      row for the pair, if there is one. */
  method FindRating(ratings: seq<Rating>, userId: int, storeId: int) returns (idx: Option<nat>)
    ensures idx.Some? <==> HasRating(ratings, userId, storeId)
    ensures idx.Some? ==> idx.value < |ratings| && RatingKey(ratings[idx.value]) == (userId, storeId)
  {
    var i := 0;
    while i < |ratings|
      invariant 0 <= i <= |ratings|
      invariant forall k :: 0 <= k < i ==> RatingKey(ratings[k]) != (userId, storeId)
    {
      if ratings[i].userId == userId && ratings[i].storeId == storeId {
        return Some(i);
      }
      i := i + 1;
    }
    return None;
  }

  /** In a table with unique pairs, the row found for a pair is its only row. */
  lemma {:induction false} OnlyRowFor(ratings: seq<Rating>, i: nat)
    requires DistinctBy(ratings, RatingKey) && i < |ratings|
    ensures RowsFor(ratings, ratings[i].userId, ratings[i].storeId) == [ratings[i]]
  {
    var n := |ratings| - 1;
    var init := ratings[..n];
    var key := RatingKey(ratings[i]);
    assert ratings == init + [ratings[n]];
    assert DistinctBy(init, RatingKey);
    if i < n {
      assert init[i] == ratings[i];
      OnlyRowFor(init, i);
      assert RatingKey(ratings[n]) != key;
    } else {
      NoRowFor(init, ratings[i].userId, ratings[i].storeId);
    }
  }

  /** A pair without a row has no rows. */
  lemma {:induction false} NoRowFor(ratings: seq<Rating>, userId: int, storeId: int)
    requires !HasRating(ratings, userId, storeId)
    ensures RowsFor(ratings, userId, storeId) == []
  {
    if ratings != [] {
      var n := |ratings| - 1;
      assert !HasRating(ratings[..n], userId, storeId) by {
        forall k | 0 <= k < n ensures RatingKey(ratings[..n][k]) != (userId, storeId) {
          assert ratings[..n][k] == ratings[k];
        }
      }
      NoRowFor(ratings[..n], userId, storeId);
    }
  }

  /** Rescoring one row changes no store's rating count. */
  lemma UpdateKeepsCounts(ratings: seq<Rating>, i: nat, row: Rating, storeId: int)
    requires i < |ratings| && row.storeId == ratings[i].storeId
    ensures StoreCount(ratings[i := row], storeId) == StoreCount(ratings, storeId)
  {
    FilterLengthUpdate(ratings, i, row, (r: Rating) => r.storeId == storeId);
  }

  /** Appending one row adds one rating to its store and none to the others. */
  lemma InsertCounts(ratings: seq<Rating>, row: Rating, storeId: int)
    ensures StoreCount(ratings + [row], storeId)
            == StoreCount(ratings, storeId) + (if row.storeId == storeId then 1 else 0)
  {
    FilterAppend(ratings, row, (r: Rating) => r.storeId == storeId);
  }

  /** The scores of a store's ratings are valid rating scores. */
  lemma StoreScoresOk(ratings: seq<Rating>, storeId: int)
    requires forall i :: 0 <= i < |ratings| ==> ScoreOk(ratings[i].score)
    ensures AllScoresOk(ScoresOf(RatingsOfStore(ratings, storeId)))
  {
    var rs := RatingsOfStore(ratings, storeId);
    forall i | 0 <= i < |rs| ensures ScoreOk(rs[i].score) {
      assert rs[i] in ratings;
    }
  }

  /** A rated store's aggregate lies between 1.0 and 5.0. */
  lemma StoreAverageBounds(ratings: seq<Rating>, storeId: int)
    requires forall i :: 0 <= i < |ratings| ==> ScoreOk(ratings[i].score)
    requires StoreCount(ratings, storeId) > 0
    ensures 10 <= StoreAverage(ratings, storeId) <= 50
  {
    StoreScoresOk(ratings, storeId);
    AverageBounds(ScoresOf(RatingsOfStore(ratings, storeId)));
  }

  /** The sum of the per-store counts over a list of stores. */
  function CountsOver(stores: seq<Store>, ratings: seq<Rating>): nat {
    if stores == [] then 0
    else CountsOver(stores[..|stores| - 1], ratings) + StoreCount(ratings, stores[|stores| - 1].id)
  }

  /** The per-store counts over stores with distinct ids add up to the number
      of ratings that refer to one of those stores. */
  lemma {:induction false} CountsOverRated(stores: seq<Store>, ratings: seq<Rating>)
    requires DistinctBy(stores, StoreId)
    ensures CountsOver(stores, ratings) == |Filter(ratings, (r: Rating) => HasStore(stores, r.storeId))|
  {
    if stores == [] {
      FilterExt(ratings, (r: Rating) => HasStore(stores, r.storeId), (r: Rating) => false);
      NoneFiltered(ratings);
    } else {
      var n := |stores| - 1;
      var init := stores[..n];
      var last := stores[n];
      assert DistinctBy(init, StoreId);
      CountsOverRated(init, ratings);
      var p := (r: Rating) => HasStore(init, r.storeId);
      var q := (r: Rating) => r.storeId == last.id;
      var pq := (r: Rating) => HasStore(stores, r.storeId);
      forall r: Rating ensures pq(r) == (p(r) || q(r)) {
        if HasStore(init, r.storeId) {
          var k :| 0 <= k < n && init[k].id == r.storeId;
          assert stores[k] == init[k];
        }
        if HasStore(stores, r.storeId) && r.storeId != last.id {
          var k :| 0 <= k < |stores| && stores[k].id == r.storeId;
          assert k < n && init[k] == stores[k];
        }
      }
      forall r: Rating ensures !(p(r) && q(r)) {
        if HasStore(init, r.storeId) {
          var k :| 0 <= k < n && init[k].id == r.storeId;
          assert stores[k] == init[k];
          assert StoreId(stores[k]) != StoreId(stores[n]);
        }
      }
      FilterDisjointUnion(ratings, p, q, pq);
    }
  }

  lemma {:induction false} NoneFiltered(ratings: seq<Rating>)
    ensures Filter(ratings, (r: Rating) => false) == []
  {
    if ratings != [] {
      NoneFiltered(ratings[..|ratings| - 1]);
    }
  }

  /** When every rating belongs to one of the stores, the stores' rating counts
      add up to the size of the ratings table: the admin dashboard's
      `totalRatings` equals the sum of the store listing's `totalRatings`. */
  lemma CountsPartitionTable(stores: seq<Store>, ratings: seq<Rating>)
    requires DistinctBy(stores, StoreId)
    requires forall i :: 0 <= i < |ratings| ==> HasStore(stores, ratings[i].storeId)
    ensures CountsOver(stores, ratings) == |ratings|
  {
    CountsOverRated(stores, ratings);
    FilterAll(ratings, (r: Rating) => HasStore(stores, r.storeId));
  }
}

=== FILE: routing.dfy ===
/** Client-side routing: the route table, the guard that wraps the private
    routes, and the landing page the login form navigates to. */
module Routing {
  import opened Wrappers
  import opened Schema

  /** What the guard, or a route, puts on screen. */
  datatype View = Loading | Navigate(to: string) | Render

  /** The dashboard a role is sent to when it opens a page it may not see. */
  function HomeFor(role: Role): (path: string)
    // definition: the source's case table, stated case by case
    ensures role == Admin <==> path == "/admin/dashboard"
    ensures role == StoreOwner <==> path == "/owner/dashboard"
    ensures role == NormalUser <==> path == "/stores"
  {
    match role
    case Admin => "/admin/dashboard"
    case StoreOwner => "/owner/dashboard"
    case NormalUser => "/stores"
  }

  /** `PrivateRoute`: wait while the session loads, send a visitor to the
      login page, let an allowed role (or any role when no list is given)
      through, and send any other role to its own dashboard. */
  function PrivateRoute(loading: bool, user: Option<Role>, allowed: Option<seq<Role>>): (v: View)
    ensures loading ==> v == Loading
    ensures !loading && user.None? ==> v == Navigate("/login")
    ensures !loading && user.Some? ==> (v == Render <==> allowed.None? || user.value in allowed.value)
    ensures !loading && user.Some? && allowed.Some? && user.value !in allowed.value ==>
      v == Navigate(HomeFor(user.value))
  {
    if loading then Loading
    else if user.None? then Navigate("/login")
    else if allowed.Some? && user.value !in allowed.value then Navigate(HomeFor(user.value))
    else Render
  }

  /** The pages the route table names. */
  datatype Page = LoginPage | SignupPage | AdminDashboard | AdminStores | AdminUsers | UserStores | OwnerDashboard

  /** The `path` of each `<Route>`. */
  function PathOf(p: Page): string {
    match p
    case LoginPage => "/login"
    case SignupPage => "/signup"
    case AdminDashboard => "/admin/dashboard"
    case AdminStores => "/admin/stores"
    case AdminUsers => "/admin/users"
    case UserStores => "/stores"
    case OwnerDashboard => "/owner/dashboard"
  }

  /** ASCII letters folded to lower case; a regular expression's `i` flag
      (without `u`) never folds a non-ASCII character onto an ASCII one. */
  function LowerAscii(c: char): (l: char)
    ensures 'A' <= c <= 'Z' ==> l as int == c as int + 32
    ensures !('A' <= c <= 'Z') ==> l == c
  {
    if 'A' <= c <= 'Z' then (c as int + 32) as char else c
  }

  /** A route path as the table spells them: not empty, no capital letter, not
      ending in `/`. */
  predicate RoutePattern(pattern: string) {
    && pattern != [] && pattern[|pattern| - 1] != '/'
    && forall i :: 0 <= i < |pattern| ==> !('A' <= pattern[i] <= 'Z')
  }

  /** A leaf route matches a location as react-router compiles it: a regular
      expression anchored at both ends that is the pattern followed by any
      number of slashes, with the `i` flag, so letters match in either case
      and trailing slashes are accepted. */
  predicate RouteMatches(pattern: string, path: string) {
    && |pattern| <= |path|
    && (forall i :: 0 <= i < |pattern| ==> LowerAscii(path[i]) == pattern[i])
    && (forall i :: |pattern| <= i < |path| ==> path[i] == '/')
  }

  /** `path` without its trailing slashes. */
  function StripSlashes(path: string): (r: string)
    ensures |r| <= |path| && r == path[..|r|]
    ensures forall i :: |r| <= i < |path| ==> path[i] == '/'
    ensures r == [] || r[|r| - 1] != '/'
  {
    if path == [] || path[|path| - 1] != '/' then path else StripSlashes(path[..|path| - 1])
  }

  /** `s` with its ASCII letters in lower case. */
  function LowerAll(s: string): (r: string)
    ensures |r| == |s|
    ensures forall i :: 0 <= i < |s| ==> r[i] == LowerAscii(s[i])
  {
    if s == [] then [] else [LowerAscii(s[0])] + LowerAll(s[1..])
  }

  /** The key a location is looked up by: trailing slashes dropped and ASCII
      letters lower-cased. */
  function RouteKey(path: string): string {
    LowerAll(StripSlashes(path))
  }

  /** A route path matches a location exactly when the location's key is that
      path. */
  lemma MatchesIffKey(pattern: string, path: string)
    requires RoutePattern(pattern)
    ensures RouteMatches(pattern, path) <==> RouteKey(path) == pattern
  {
    var n := |pattern|;
    var r := StripSlashes(path);
    if RouteMatches(pattern, path) {
      assert LowerAscii(path[n - 1]) == pattern[n - 1];
      StripSlashesAt(path, n);
      assert LowerAll(r) == pattern;
    }
    if RouteKey(path) == pattern {
      forall i | 0 <= i < n ensures LowerAscii(path[i]) == pattern[i] {
        assert r[i] == path[i];
      }
    }
  }

  /** A location that is `n` characters, the last not a slash, followed by
      slashes only loses exactly those slashes. */
  lemma {:induction false} StripSlashesAt(path: string, n: nat)
    requires 1 <= n <= |path| && path[n - 1] != '/'
    requires forall i :: n <= i < |path| ==> path[i] == '/'
    ensures StripSlashes(path) == path[..n]
    decreases |path|
  {
    if |path| > n {
      var init := path[..|path| - 1];
      StripSlashesAt(init, n);
      assert init[..n] == path[..n];
    }
  }

  /** Every path of the table is a route pattern. */
  lemma PathsArePatterns(p: Page)
    ensures RoutePattern(PathOf(p))
  {
  }

  /** The page whose path is `key`, if any. */
  function PageOfKey(key: string): (p: Option<Page>)
    ensures p.Some? ==> PathOf(p.value) == key
  {
    if key == "/login" then Some(LoginPage)
    else if key == "/signup" then Some(SignupPage)
    else if key == "/admin/dashboard" then Some(AdminDashboard)
    else if key == "/admin/stores" then Some(AdminStores)
    else if key == "/admin/users" then Some(AdminUsers)
    else if key == "/stores" then Some(UserStores)
    else if key == "/owner/dashboard" then Some(OwnerDashboard)
    else None
  }

  /** Every page's path leads back to it. */
  lemma PageOfPath(page: Page)
    ensures PageOfKey(PathOf(page)) == Some(page)
  {
    match page
    case LoginPage =>
    case SignupPage =>
    case AdminDashboard =>
    case AdminStores =>
    case AdminUsers =>
    case UserStores =>
    case OwnerDashboard =>
      assert PathOf(page)[1] != "/admin/dashboard"[1];
  }

  /** `<Routes>`: the page whose route matches the location, `None` for the
      catch-all. */
  function PageAt(path: string): (p: Option<Page>)
    ensures forall page: Page :: p == Some(page) <==> RouteMatches(PathOf(page), path)
  {
    KeyDecidesMatch(path);
    PageOfKey(RouteKey(path))
  }

  /** Each route matches a location exactly when the location's key is its
      path, and then the key leads to that route's page. */
  lemma KeyDecidesMatch(path: string)
    ensures forall page: Page :: PageOfKey(RouteKey(path)) == Some(page) <==> RouteMatches(PathOf(page), path)
  {
    forall page: Page
      ensures PageOfKey(RouteKey(path)) == Some(page) <==> RouteMatches(PathOf(page), path)
    {
      PathsArePatterns(page);
      MatchesIffKey(PathOf(page), path);
      PageOfPath(page);
    }
  }

  /** Each page is found at its own path. */
  lemma PageAtOwnPath(page: Page)
    ensures PageAt(PathOf(page)) == Some(page)
  {
    PathsArePatterns(page);
    assert RouteMatches(PathOf(page), PathOf(page));
  }

  /** Matching ignores letter case and trailing slashes: `/Stores` opens the
      store list and `/login/` the login page. */
  lemma CaseAndSlashIgnored()
    ensures PageAt("/Stores") == Some(UserStores)
    ensures PageAt("/login/") == Some(LoginPage)
  {
    assert RouteMatches(PathOf(UserStores), "/Stores");
    assert RouteMatches(PathOf(LoginPage), "/login/");
  }

  /** The `allowedRoles` of the guard around a page; `None` for the public
      pages, which have no guard. */
  function AllowedOn(p: Page): (allowed: Option<seq<Role>>)
    // definition: the source's case table, stated case by case
    ensures allowed.None? <==> p == LoginPage || p == SignupPage
    ensures p in {AdminDashboard, AdminStores, AdminUsers} ==> allowed == Some([Admin])
    ensures p == UserStores ==> allowed == Some([NormalUser])
    ensures p == OwnerDashboard ==> allowed == Some([StoreOwner])
  {
    match p
    case LoginPage => None
    case SignupPage => None
    case AdminDashboard => Some([Admin])
    case AdminStores => Some([Admin])
    case AdminUsers => Some([Admin])
    case UserStores => Some([NormalUser])
    case OwnerDashboard => Some([StoreOwner])
  }

  /** What opening `path` shows: public pages render, guarded pages go
      through the guard, anything else is sent to the login page. */
  function Visit(path: string, loading: bool, user: Option<Role>): (v: View)
    ensures PageAt(path).None? ==> v == Navigate("/login")
    ensures RouteMatches(PathOf(LoginPage), path) || RouteMatches(PathOf(SignupPage), path) ==> v == Render
    ensures PageAt(path).Some? && AllowedOn(PageAt(path).value).Some? ==>
      v == PrivateRoute(loading, user, AllowedOn(PageAt(path).value))
    // a signed-in user sees exactly the public pages and the pages open to its role
    ensures !loading && user.Some? ==>
      (v == Render <==>
        && PageAt(path).Some?
        && (AllowedOn(PageAt(path).value).None? || user.value in AllowedOn(PageAt(path).value).value))
  {
    match PageAt(path)
    case None => Navigate("/login")
    case Some(p) =>
      if AllowedOn(p).None? then Render else PrivateRoute(loading, user, AllowedOn(p))
  }

  /** A signed-in user's own dashboard is a page its role may see. */
  lemma HomeIsAllowed(role: Role)
    ensures Visit(HomeFor(role), false, Some(role)) == Render
  {
    match role
    case Admin => PageAtOwnPath(AdminDashboard);
    case StoreOwner => PageAtOwnPath(OwnerDashboard);
    case NormalUser => PageAtOwnPath(UserStores);
  }

  /** No redirect loop: wherever a page sends a signed-in user (or a visitor),
      the target renders for them. */
  lemma NoRedirectLoop(path: string, user: Option<Role>)
    requires Visit(path, false, user).Navigate?
    ensures Visit(Visit(path, false, user).to, false, user) == Render
  {
    var to := Visit(path, false, user).to;
    RedirectTargets(path, user);
    if to == PathOf(LoginPage) {
      PageAtOwnPath(LoginPage);
    } else {
      HomeIsAllowed(user.value);
    }
  }

  /** A redirect goes to the login page or to the signed-in user's own
      dashboard. */
  lemma RedirectTargets(path: string, user: Option<Role>)
    requires Visit(path, false, user).Navigate?
    ensures var to := Visit(path, false, user).to;
      to == PathOf(LoginPage) || (user.Some? && to == HomeFor(user.value))
  {
  }

  /** `handleSubmit`'s navigation after a successful login. */
  function LandingFor(role: Role): (path: string)
    // definition: the source's case table, stated case by case
    ensures role == Admin ==> path == "/admin/dashboard"
    ensures role == StoreOwner ==> path == "/owner/dashboard"
    ensures role != Admin && role != StoreOwner ==> path == "/stores"
  {
    if role == Admin then "/admin/dashboard"
    else if role == StoreOwner then "/owner/dashboard"
    else "/stores"
  }

  /** The login landing page is the page the guard would send that role to,
      and it renders for that role. */
  lemma LandingIsHome(role: Role)
    ensures LandingFor(role) == HomeFor(role)
    ensures Visit(LandingFor(role), false, Some(role)) == Render
  {
    HomeIsAllowed(role);
  }

  const LoginFailedMsg := "Invalid email or password"

  /** The login page's state. */
  class LoginView {
    var error: string
    var location: string

    constructor(location: string)
      ensures error == "" && this.location == location
    {
      error := "";
      this.location := location;
    }

    /** `handleSubmit`: clears the error, then navigates to the role's
        landing page, or shows the one fixed message whatever made the login
        fail. `outcome` is the role of the user the login returned, `None`
        when it threw. */
    method HandleSubmit(outcome: Option<Role>)
      modifies this
      ensures outcome.Some? ==> error == "" && location == LandingFor(outcome.value)
      ensures outcome.None? ==> error == LoginFailedMsg && location == old(location)
    {
      error := "";
      match outcome {
        case Some(role) =>
          location := LandingFor(role);
        case None =>
          error := LoginFailedMsg;
      }
    }
  }
}

=== FILE: schema.dfy ===
/** The three tables of the backend (users, stores, ratings), their column
    constraints and the table-wide invariants the schema declares: unique email,
    unique (UserId, StoreId) pair, auto-incremented ids and the foreign keys of
    the associations. */
module Schema {
  import opened Wrappers
  import opened Seqs

  /** The `role` column: an ENUM of three values. */
  datatype Role = Admin | NormalUser | StoreOwner

  /** The spelling of a role in the ENUM and on the wire. */
  function RoleName(r: Role): string {
    match r
    case Admin => "ADMIN"
    case NormalUser => "NORMAL_USER"
    case StoreOwner => "STORE_OWNER"
  }

  /** The role a string names, if it names one of the ENUM values. */
  function ParseRole(s: string): (r: Option<Role>)
    ensures r.Some? <==> s == "ADMIN" || s == "NORMAL_USER" || s == "STORE_OWNER"
    ensures r.Some? ==> RoleName(r.value) == s
  {
    if s == "ADMIN" then Some(Admin)
    else if s == "NORMAL_USER" then Some(NormalUser)
    else if s == "STORE_OWNER" then Some(StoreOwner)
    else None
  }

  /** Every role name parses back to its role. */
  lemma RoleNameRoundTrip(r: Role)
    ensures ParseRole(RoleName(r)) == Some(r)
  {
  }

  /** The role a user row gets when none is supplied. */
  const DefaultRole: Role := NormalUser

  /** A row of the users table; `passwordDigest` is the stored bcrypt hash. */
  datatype User = User(id: int, name: string, email: string, passwordDigest: string,
                       address: string, role: Role)

  /** A row of the stores table; `ownerId` is the nullable foreign key to the
      owning user. */
  datatype Store = Store(id: int, name: string, email: string, address: string,
                         ownerId: Option<int>)

  /** A row of the ratings table; `updatedAt` is the Sequelize timestamp. */
  datatype Rating = Rating(id: int, userId: int, storeId: int, score: int, updatedAt: int)

  /** Column constraints of a user row: name between 20 and 60 characters,
      address at most 400 characters. */
  predicate UserRowOk(u: User) {
    20 <= |u.name| <= 60 && |u.address| <= 400
  }

  /** Column constraint of a store row: the address fits its STRING(400)
      column. */
  predicate StoreRowOk(s: Store) {
    |s.address| <= 400
  }

  /** Column constraint of a rating row: the score is between 1 and 5. */
  predicate ScoreOk(score: int) {
    1 <= score <= 5
  }

  function UserId(u: User): int { u.id }
  function UserEmail(u: User): string { u.email }
  function StoreId(s: Store): int { s.id }
  function RatingId(r: Rating): int { r.id }
  function RatingKey(r: Rating): (int, int) { (r.userId, r.storeId) }

  predicate HasUser(users: seq<User>, id: int) {
    exists i :: 0 <= i < |users| && users[i].id == id
  }

  predicate HasStore(stores: seq<Store>, id: int) {
    exists i :: 0 <= i < |stores| && stores[i].id == id
  }

  /** A row for the pair (userId, storeId) exists. */
  predicate HasRating(ratings: seq<Rating>, userId: int, storeId: int) {
    exists i :: 0 <= i < |ratings| && RatingKey(ratings[i]) == (userId, storeId)
  }

  /** The users table: valid rows, distinct ids below the next auto-increment
      value, and no email twice. */
  ghost predicate UsersOk(users: seq<User>, nextId: int) {
    && (forall i :: 0 <= i < |users| ==> UserRowOk(users[i]) && 1 <= users[i].id < nextId)
    && DistinctBy(users, UserId)
    && DistinctBy(users, UserEmail)
  }

  /** The stores table: valid rows, distinct ids below the next auto-increment
      value, and every owner reference names an existing user. */
  ghost predicate StoresOk(stores: seq<Store>, users: seq<User>, nextId: int) {
    && (forall i :: 0 <= i < |stores| ==> StoreRowOk(stores[i]) && 1 <= stores[i].id < nextId)
    && DistinctBy(stores, StoreId)
    && (forall i :: 0 <= i < |stores| && stores[i].ownerId.Some? ==> HasUser(users, stores[i].ownerId.value))
  }

  /** The ratings table: every score in 1..5, distinct ids below the next
      auto-increment value, at most one row per (UserId, StoreId), and every
      row belongs to an existing user and an existing store. */
  ghost predicate RatingsOk(ratings: seq<Rating>, users: seq<User>, stores: seq<Store>, nextId: int) {
    && (forall i :: 0 <= i < |ratings| ==> ScoreOk(ratings[i].score) && 1 <= ratings[i].id < nextId)
    && DistinctBy(ratings, RatingId)
    && DistinctBy(ratings, RatingKey)
    && (forall i :: 0 <= i < |ratings| ==>
          HasUser(users, ratings[i].userId) && HasStore(stores, ratings[i].storeId))
  }
}

=== FILE: seqs.dfy ===
/** Order-preserving filtering of sequences and "no two elements share a key",
    the two shapes every table and every listing of the model is built from. */
module Seqs {

  /** The elements of `xs` that satisfy `p`, in their original order
      (a `WHERE` clause over a table, `Array.prototype.filter` on a list). */
  function Filter<T>(xs: seq<T>, p: T -> bool): (r: seq<T>)
    ensures |r| <= |xs|
    ensures forall i :: 0 <= i < |r| ==> r[i] in xs && p(r[i])
    ensures forall i :: 0 <= i < |xs| && p(xs[i]) ==> xs[i] in r
  {
    if xs == [] then []
    else
      var init := Filter(xs[..|xs| - 1], p);
      var last := xs[|xs| - 1];
      assert xs == xs[..|xs| - 1] + [last];
      if p(last) then init + [last] else init
  }

  /** No two positions of `xs` carry the same key. */
  ghost predicate DistinctBy<T, K>(xs: seq<T>, key: T -> K) {
    forall i, j :: 0 <= i < j < |xs| ==> key(xs[i]) != key(xs[j])
  }

  /** Filtering an appended sequence filters each part. */
  lemma FilterAppend<T>(xs: seq<T>, x: T, p: T -> bool)
    ensures Filter(xs + [x], p) == Filter(xs, p) + (if p(x) then [x] else [])
  {
    assert (xs + [x])[..|xs|] == xs;
  }

  /** Filtering keeps distinct keys distinct. */
  lemma {:induction false} FilterDistinct<T, K>(xs: seq<T>, p: T -> bool, key: T -> K)
    requires DistinctBy(xs, key)
    ensures DistinctBy(Filter(xs, p), key)
  {
    if xs != [] {
      var init := xs[..|xs| - 1];
      var last := xs[|xs| - 1];
      assert DistinctBy(init, key);
      FilterDistinct(init, p, key);
      if p(last) {
        var f := Filter(init, p);
        forall i | 0 <= i < |f| ensures key(f[i]) != key(last) {
          assert f[i] in init;
          var k :| 0 <= k < |init| && init[k] == f[i];
          assert xs[k] == f[i];
        }
      }
    }
  }

  /** Replacing one element by another on which `p` agrees changes no count. */
  lemma {:induction false} FilterLengthUpdate<T>(xs: seq<T>, i: nat, y: T, p: T -> bool)
    requires i < |xs| && p(xs[i]) == p(y)
    ensures |Filter(xs[i := y], p)| == |Filter(xs, p)|
  {
    var n := |xs| - 1;
    var ys := xs[i := y];
    assert xs == xs[..n] + [xs[n]];
    assert ys == ys[..n] + [ys[n]];
    FilterAppend(xs[..n], xs[n], p);
    FilterAppend(ys[..n], ys[n], p);
    if i < n {
      assert ys[..n] == xs[..n][i := y];
      assert ys[n] == xs[n];
      FilterLengthUpdate(xs[..n], i, y, p);
    } else {
      assert ys[..n] == xs[..n];
    }
  }

  /** The number of elements satisfying `p` or `q` is the sum of the two counts
      when no element satisfies both. */
  lemma {:induction false} FilterDisjointUnion<T>(xs: seq<T>, p: T -> bool, q: T -> bool, pq: T -> bool)
    requires forall x :: pq(x) == (p(x) || q(x))
    requires forall x :: !(p(x) && q(x))
    ensures |Filter(xs, pq)| == |Filter(xs, p)| + |Filter(xs, q)|
  {
    if xs != [] {
      FilterDisjointUnion(xs[..|xs| - 1], p, q, pq);
    }
  }

  /** A filter every element passes keeps the whole sequence. */
  lemma {:induction false} FilterAll<T>(xs: seq<T>, p: T -> bool)
    requires forall i :: 0 <= i < |xs| ==> p(xs[i])
    ensures Filter(xs, p) == xs
  {
    if xs != [] {
      var n := |xs| - 1;
      assert xs == xs[..n] + [xs[n]];
      FilterAll(xs[..n], p);
    }
  }

  /** Filters with the same verdict on every element give the same sequence. */
  lemma {:induction false} FilterExt<T>(xs: seq<T>, p: T -> bool, q: T -> bool)
    requires forall i :: 0 <= i < |xs| ==> p(xs[i]) == q(xs[i])
    ensures Filter(xs, p) == Filter(xs, q)
  {
    if xs != [] {
      FilterExt(xs[..|xs| - 1], p, q);
    }
  }
}

=== FILE: signup_page.dfy ===
/** The signup page: the form's own checks, run before anything is sent, and
    the submit handler that either shows the first failed check, or calls the
    signup endpoint and then navigates or shows the server's message. */
module SignupPage {
  import opened Wrappers
  import opened Text
  import opened Validation

  /** The form's state: the four controlled inputs. */
  datatype SignupForm = SignupForm(name: string, email: string, password: string, address: string)

  /** The special characters of the form's password rule `[!@#$%^&*]`. */
  const FrontSpecials: set<char> := {'!', '@', '#', '$', '%', '^', '&', '*'}

  const NameLengthMsg := "Name must be 20-60 characters"
  const PasswordLengthMsg := "Password must be 8-16 characters"
  const UppercaseMsg := "Password must contain an uppercase letter"
  const SpecialMsg := "Password must contain a special character"
  const AddressMsg := "Address too long"
  const SignupFailedMsg := "Failed to create account"

  /** The form's five rules; the name is measured untrimmed. */
  predicate FrontNameOk(name: string) { 20 <= |name| <= 60 }
  predicate FrontPasswordOk(password: string) {
    PasswordLengthOk(password) && ContainsUpper(password) && ContainsAny(password, FrontSpecials)
  }
  predicate FrontAddressOk(address: string) { |address| <= 400 }

  /** `validate()`: the message of the first rule that fails, in the order
      name, password length, upper case, special character, address. */
  function ValidateForm(f: SignupForm): (r: Option<string>)
    ensures r.None? <==> FrontNameOk(f.name) && FrontPasswordOk(f.password) && FrontAddressOk(f.address)
    ensures r == Some(NameLengthMsg) <==> !FrontNameOk(f.name)
    ensures r == Some(PasswordLengthMsg) <==> FrontNameOk(f.name) && !PasswordLengthOk(f.password)
    ensures r == Some(UppercaseMsg) <==>
      FrontNameOk(f.name) && PasswordLengthOk(f.password) && !ContainsUpper(f.password)
    ensures r == Some(SpecialMsg) <==>
      FrontNameOk(f.name) && PasswordLengthOk(f.password) && ContainsUpper(f.password)
      && !ContainsAny(f.password, FrontSpecials)
    ensures r == Some(AddressMsg) <==> !FrontAddressOk(f.address) && FrontNameOk(f.name) && FrontPasswordOk(f.password)
  {
    if !FrontNameOk(f.name) then Some(NameLengthMsg)
    else if !PasswordLengthOk(f.password) then Some(PasswordLengthMsg)
    else if !ContainsUpper(f.password) then Some(UppercaseMsg)
    else if !ContainsAny(f.password, FrontSpecials) then Some(SpecialMsg)
    else if !FrontAddressOk(f.address) then Some(AddressMsg)
    else None
  }

  /** A character class that is a subset of another matches less. */
  lemma ContainsAnySubset(s: string, small: set<char>, large: set<char>)
    requires small <= large
    requires ContainsAny(s, small)
    ensures ContainsAny(s, large)
  {
    var i :| 0 <= i < |s| && s[i] in small;
    assert s[i] in large;
  }

  /** Every password the form accepts also passes the server's password rules:
      `[!@#$%^&*]` is a subset of the server's special characters. */
  lemma FormPasswordPassesServer(f: SignupForm)
    requires ValidateForm(f).None?
    ensures BackendPasswordOk(f.password)
  {
    ContainsAnySubset(f.password, FrontSpecials, BackendSpecials);
  }

  /** The converse fails: the server accepts a password whose only special
      character is outside the form's class. */
  lemma ServerPasswordFormRejects()
    ensures BackendPasswordOk("Abcdefg(") && !FrontPasswordOk("Abcdefg(")
  {
    var p := "Abcdefg(";
    assert p[0] == 'A' && IsUpperAscii(p[0]);
    assert p[7] == '(' && p[7] in BackendSpecials;
    assert forall i :: 0 <= i < |p| ==> p[i] !in FrontSpecials;
  }

  /** The form measures the name untrimmed, the server after trimming: a
      20-character name that starts with white space passes the form and fails
      the server's rule. */
  lemma PaddedNamePassesFormOnly(name: string)
    requires |name| == 20 && IsSpace(name[0])
    ensures FrontNameOk(name) && !NameOk(name)
  {
    TrimShortensLeadingSpace(name);
  }

  /** What the signup call did, when it was made. */
  datatype SignupOutcome = SignupOk | SignupFailed(message: string)

  /** The page's state: the form, the error banner and the current path. */
  class SignupView {
    var form: SignupForm
    var error: string
    var location: string

    constructor(location: string)
      ensures form == SignupForm("", "", "", "") && error == "" && this.location == location
    {
      form := SignupForm("", "", "", "");
      error := "";
      this.location := location;
    }

    /** `handleSubmit`: a form that fails `validate()` shows the message and
        makes no call; otherwise the signup call is made and `outcome` is what
        it did. Success navigates to `/stores` without clearing an earlier
        error; failure shows the server's message, or the fixed fallback when
        the reply carries none. */
    method HandleSubmit(outcome: SignupOutcome) returns (called: bool)
      modifies this
      ensures called <==> ValidateForm(old(form)).None?
      ensures form == old(form)
      ensures !called ==> error == ValidateForm(form).value && location == old(location)
      ensures called && outcome.SignupOk? ==> location == "/stores" && error == old(error)
      ensures called && outcome.SignupFailed? ==>
        location == old(location)
        && error == (if outcome.message != "" then outcome.message else SignupFailedMsg)
    {
      var problem := ValidateForm(form);
      if problem.Some? {
        error := problem.value;
        return false;
      }
      called := true;
      match outcome {
        case SignupOk =>
          location := "/stores";
        case SignupFailed(message) =>
          error := if message != "" then message else SignupFailedMsg;
      }
    }
  }
}

=== FILE: store_list_page.dfy ===
/** The normal user's store list: a map of draft scores the star buttons fill
    in and a successful submit clears, and the rules for the rating a card
    shows, its filled stars and its submit button. */
module StoreListPage {
  import opened Wrappers
  import opened Schema
  import opened Seqs
  import opened RatingRows
  import opened Queries

  /** `selectedRatings[storeId]` read as a number: 0 stands for a missing key,
      which is falsy like a zero score. */
  function DraftOf(drafts: map<int, int>, storeId: int): int {
    if storeId in drafts then drafts[storeId] else 0
  }

  /** The store has a truthy draft. */
  predicate HasDraft(drafts: map<int, int>, storeId: int) {
    DraftOf(drafts, storeId) != 0
  }

  /** `selectedRatings[id] || myRating || 0`, with an absent saved rating read
      as 0. */
  function CurrentRating(draft: int, saved: int): (r: int)
    ensures draft != 0 ==> r == draft
    ensures draft == 0 && saved != 0 ==> r == saved
    ensures draft == 0 && saved == 0 ==> r == 0
  {
    if draft != 0 then draft else if saved != 0 then saved else 0
  }

  /** Star button `star` is drawn filled: the filled buttons are those numbered
      up to the card's rating. */
  function StarFilled(current: int, star: int): (filled: bool)
    ensures filled <==> star <= current
  {
    current >= star
  }

  /** The number of filled buttons among stars 1..n. */
  function FilledCount(current: int, n: nat): nat {
    if n == 0 then 0 else FilledCount(current, n - 1) + (if StarFilled(current, n) then 1 else 0)
  }

  /** A rating of 0..n fills exactly that many of the stars 1..n. */
  lemma {:induction false} FilledCountIsRating(current: int, n: nat)
    requires 0 <= current <= n
    ensures FilledCount(current, n) == current
  {
    if n > current {
      FilledCountIsRating(current, n - 1);
    } else if n > 0 {
      FilledBelow(current, n - 1);
    }
  }

  /** Every star up to the rating is filled. */
  lemma {:induction false} FilledBelow(current: int, n: nat)
    requires 1 <= current && n < current
    ensures FilledCount(current, n) == n
  {
    if n > 0 {
      FilledBelow(current, n - 1);
    }
  }

  /** `disabled={!selectedRatings[store.id]}`: the button is disabled when the
      store's draft is missing or zero. */
  function SubmitDisabled(drafts: map<int, int>, storeId: int): (disabled: bool)
    ensures disabled <==> storeId !in drafts || drafts[storeId] == 0
  {
    !HasDraft(drafts, storeId)
  }

  /** Choosing star `score` shows that score on the card, fills stars
      1..score and enables its submit button; no other card changes. */
  lemma SelectShows(drafts: map<int, int>, storeId: int, score: int, saved: int)
    requires 1 <= score <= 5
    ensures CurrentRating(DraftOf(drafts[storeId := score], storeId), saved) == score
    ensures FilledCount(CurrentRating(DraftOf(drafts[storeId := score], storeId), saved), 5) == score
    ensures !SubmitDisabled(drafts[storeId := score], storeId)
    ensures forall other :: other != storeId ==>
      DraftOf(drafts[storeId := score], other) == DraftOf(drafts, other)
  {
    FilledCountIsRating(score, 5);
  }

  /** Once a store's draft is removed the card falls back to the saved
      rating and its button is disabled; no other card changes. */
  lemma ClearedShowsSaved(drafts: map<int, int>, storeId: int, saved: int)
    ensures CurrentRating(DraftOf(drafts - {storeId}, storeId), saved) == saved
    ensures SubmitDisabled(drafts - {storeId}, storeId)
    ensures forall other :: other != storeId ==> DraftOf(drafts - {storeId}, other) == DraftOf(drafts, other)
  {
  }

  /** The body the submit button posts. */
  datatype RatingPost = RatingPost(storeId: int, score: int)

  /** The toast a submit shows. */
  datatype Toast = Warning(text: string) | Success(text: string) | Failure(text: string)

  /** What the server did with the POST. */
  datatype PostOutcome = PostOk | PostFailed(message: string)

  const SelectFirstMsg := "Please select a star rating first."
  const SubmittedMsg := "Rating submitted successfully!"
  const SubmitFailedMsg := "Failed to submit rating"

  /** The page's draft map. */
  class StoreListView {
    var drafts: map<int, int>

    constructor()
      ensures drafts == map[]
    {
      drafts := map[];
    }

    /** `handleSelectRating`: sets the one store's draft. */
    method HandleSelectRating(storeId: int, score: int)
      modifies this
      ensures drafts == old(drafts)[storeId := score]
      ensures forall other :: other != storeId ==> DraftOf(drafts, other) == DraftOf(old(drafts), other)
    {
      drafts := drafts[storeId := score];
    }

    /** `handleSubmitClick`: without a truthy draft it warns and posts
        nothing; otherwise it posts the draft, and `outcome` is what the
        server did. Success removes that store's draft only; failure keeps
        every draft. */
    method HandleSubmitClick(storeId: int, outcome: PostOutcome) returns (post: Option<RatingPost>, toast: Toast)
      modifies this
      ensures post.Some? <==> HasDraft(old(drafts), storeId)
      ensures post.Some? ==> post.value == RatingPost(storeId, old(drafts)[storeId])
      ensures post.None? ==> toast == Warning(SelectFirstMsg) && drafts == old(drafts)
      ensures post.Some? && outcome.PostOk? ==>
        toast == Success(SubmittedMsg) && drafts == old(drafts) - {storeId}
      ensures post.Some? && outcome.PostFailed? ==>
        && toast == Failure(if outcome.message != "" then outcome.message else SubmitFailedMsg)
        && drafts == old(drafts)
    {
      var score := DraftOf(drafts, storeId);
      if score == 0 {
        return None, Warning(SelectFirstMsg);
      }
      post := Some(RatingPost(storeId, score));
      match outcome {
        case PostOk =>
          drafts := drafts - {storeId};
          toast := Success(SubmittedMsg);
        case PostFailed(message) =>
          toast := Failure(if message != "" then message else SubmitFailedMsg);
      }
    }
  }

  // ----- The saved rating the card reads -----

  /** The rating a card shows for a row of the user store listing as the
      server sends it: the row has no `myRating`, which reads as undefined. */
  function ShownAsSent(drafts: map<int, int>, row: StoreRow): int {
    CurrentRating(DraftOf(drafts, row.id), 0)
  }

  /** With the listing as sent, a card without a draft shows 0 stars even
      when the caller has a saved rating for that store. */
  lemma SavedRatingHiddenAsSent(stores: seq<Store>, ratings: seq<Rating>, q: ListQuery, userId: int,
                                i: nat, k: nat, drafts: map<int, int>)
    requires i < |ListStoresForUser(stores, ratings, q).rows|
    requires k < |ratings| && ScoreOk(ratings[k].score)
    requires RatingKey(ratings[k]) == (userId, ListStoresForUser(stores, ratings, q).rows[i].id)
    requires !HasDraft(drafts, ratings[k].storeId)
    ensures ShownAsSent(drafts, ListStoresForUser(stores, ratings, q).rows[i]) == 0 < ratings[k].score
  {
  }

  /** The caller's saved score for a store: the score of its row, 0 (falsy)
      when it has none. */
  function MyScore(ratings: seq<Rating>, userId: int, storeId: int): (s: int)
    ensures RowsFor(ratings, userId, storeId) == [] ==> s == 0
    ensures forall r :: RowsFor(ratings, userId, storeId) == [r] ==> s == r.score
  {
    var rows := RowsFor(ratings, userId, storeId);
    if rows == [] then 0 else rows[0].score
  }

  /** A listing row together with the caller's own saved score. */
  datatype MyStoreRow = MyStoreRow(row: StoreRow, myRating: int)

  /** The user store listing with `myRating` added to each row. */
  function ListStoresWithMine(stores: seq<Store>, ratings: seq<Rating>, q: ListQuery, userId: int)
    : (rows: seq<MyStoreRow>)
    ensures |rows| == |ListStoresForUser(stores, ratings, q).rows|
    ensures forall i :: 0 <= i < |rows| ==>
      && rows[i].row == ListStoresForUser(stores, ratings, q).rows[i]
      && rows[i].myRating == MyScore(ratings, userId, rows[i].row.id)
  {
    var l := ListStoresForUser(stores, ratings, q).rows;
    seq(|l|, i requires 0 <= i < |l| => MyStoreRow(l[i], MyScore(ratings, userId, l[i].id)))
  }

  /** The rating a card shows for a row that carries `myRating`. */
  function Shown(drafts: map<int, int>, row: MyStoreRow): int {
    CurrentRating(DraftOf(drafts, row.row.id), row.myRating)
  }

  /** With `myRating` sent, a card without a draft shows the caller's saved
      score for that store. */
  lemma SavedRatingShown(stores: seq<Store>, ratings: seq<Rating>, q: ListQuery, userId: int,
                         i: nat, k: nat, drafts: map<int, int>)
    requires DistinctBy(ratings, RatingKey)
    requires i < |ListStoresWithMine(stores, ratings, q, userId)|
    requires k < |ratings| && ScoreOk(ratings[k].score)
    requires RatingKey(ratings[k]) == (userId, ListStoresWithMine(stores, ratings, q, userId)[i].row.id)
    requires !HasDraft(drafts, ratings[k].storeId)
    ensures Shown(drafts, ListStoresWithMine(stores, ratings, q, userId)[i]) == ratings[k].score
  {
    OnlyRowFor(ratings, k);
  }

  /** After a successful submit (one row for the pair, holding the score, and
      the draft removed) the refreshed card shows the submitted score. */
  lemma SubmittedScoreShown(ratings: seq<Rating>, userId: int, row: StoreRow,
                            saved: Rating, drafts: map<int, int>)
    requires RowsFor(ratings, userId, row.id) == [saved] && ScoreOk(saved.score)
    ensures Shown(drafts - {row.id}, MyStoreRow(row, MyScore(ratings, userId, row.id))) == saved.score
  {
  }
}

=== FILE: tables.dfy ===
/** The backend's three tables as one object whose handlers change them in
    place: the rating upsert of `submitRating`, the inserts of `createUser` and
    `createStore`, and the deletions the associations cascade. */
module Tables {
  import opened Wrappers
  import opened Seqs
  import opened Schema
  import opened RatingRows

  /** The reply of `submitRating`. */
  datatype RatingReply =
    | InvalidScore
    | StoreNotFound
    | Updated(row: Rating)
    | Created(row: Rating)
    | RatingServerError
  {
    function Status(): int {
      match this
      case InvalidScore => 400
      case StoreNotFound => 404
      case Updated(_) => 200
      case Created(_) => 201
      case RatingServerError => 500
    }

    function Message(): string {
      match this
      case InvalidScore => "Rating must be between 1 and 5"
      case StoreNotFound => "Store not found"
      case Updated(_) => "Rating updated successfully"
      case Created(_) => "Rating submitted successfully"
      case RatingServerError => "Server error"
    }
  }

  /** What `createUser` sends back for a new user: no password field. */
  datatype UserSummary = UserSummary(id: int, name: string, email: string, role: Role)

  /** The reply of `createUser`. */
  datatype CreateUserReply =
    | EmailTaken
    | UserCreated(user: UserSummary)
    | UserServerError
  {
    function Status(): int {
      match this
      case EmailTaken => 409
      case UserCreated(_) => 201
      case UserServerError => 500
    }
  }

  /** The reply of `createStore`. */
  datatype CreateStoreReply = StoreCreated(store: Store) | StoreServerError

  /** An email already in the users table. */
  predicate EmailInUse(users: seq<User>, email: string) {
    exists i :: 0 <= i < |users| && users[i].email == email
  }

  /** `role || 'NORMAL_USER'`, then the ENUM column's check: the empty string
      means the default role; any other string must name a role. */
  function RoleOrDefault(role: string): (r: Option<Role>)
    // definition: the source's case table, stated case by case
    ensures role == "" ==> r == Some(DefaultRole)
    ensures role != "" ==> r == ParseRole(role)
  {
    if role == "" then Some(DefaultRole) else ParseRole(role)
  }

  /** The stores with the owner reference to `userId` set to NULL, the default
      `ON DELETE SET NULL` of the owner association. */
  function ClearOwner(stores: seq<Store>, userId: int): (r: seq<Store>)
    ensures |r| == |stores|
    ensures forall i :: 0 <= i < |r| ==> r[i] == stores[i].(ownerId := r[i].ownerId)
    ensures forall i :: 0 <= i < |r| ==>
      r[i].ownerId == if stores[i].ownerId == Some(userId) then None else stores[i].ownerId
  {
    if stores == [] then []
    else
      var s := stores[0];
      [if s.ownerId == Some(userId) then s.(ownerId := None) else s] + ClearOwner(stores[1..], userId)
  }

  /** The users other than `id`. */
  function UsersWithout(users: seq<User>, id: int): seq<User> {
    Filter(users, (u: User) => u.id != id)
  }

  /** The stores other than `id`. */
  function StoresWithout(stores: seq<Store>, id: int): seq<Store> {
    Filter(stores, (s: Store) => s.id != id)
  }

  /** The ratings not given by user `id`. */
  function RatingsNotBy(ratings: seq<Rating>, id: int): seq<Rating> {
    Filter(ratings, (r: Rating) => r.userId != id)
  }

  /** The ratings not given to store `id`. */
  function RatingsNotFor(ratings: seq<Rating>, id: int): seq<Rating> {
    Filter(ratings, (r: Rating) => r.storeId != id)
  }

  /** The schema's constraints over the three tables and their counters. */
  ghost predicate TablesOk(users: seq<User>, stores: seq<Store>, ratings: seq<Rating>,
                           nextUserId: int, nextStoreId: int, nextRatingId: int) {
    && nextUserId >= 1 && nextStoreId >= 1 && nextRatingId >= 1
    && UsersOk(users, nextUserId)
    && StoresOk(stores, users, nextStoreId)
    && RatingsOk(ratings, users, stores, nextRatingId)
  }

  class Database {
    var users: seq<User>
    var stores: seq<Store>
    var ratings: seq<Rating>
    var nextUserId: int
    var nextStoreId: int
    var nextRatingId: int

    /** The schema's constraints hold of the current tables. */
    ghost predicate Valid()
      reads this
    {
      TablesOk(users, stores, ratings, nextUserId, nextStoreId, nextRatingId)
    }

    /** Empty tables whose auto-increment counters start at 1. */
    constructor ()
      ensures Valid()
      ensures users == [] && stores == [] && ratings == []
    {
      users, stores, ratings := [], [], [];
      nextUserId, nextStoreId, nextRatingId := 1, 1, 1;
    }

    /** `submitRating` for the caller `userId` at time `now`: check the score,
        look the store up, then rescore the caller's row for the store or
        append a new row. */
    method SubmitRating(userId: int, storeId: int, score: int, now: int) returns (reply: RatingReply)
      requires Valid()
      modifies this
      ensures Valid()
      ensures users == old(users) && stores == old(stores)
      ensures nextUserId == old(nextUserId) && nextStoreId == old(nextStoreId)
      ensures reply == InvalidScore <==> !ScoreOk(score)
      ensures reply == StoreNotFound <==> ScoreOk(score) && !HasStore(stores, storeId)
      ensures reply.Updated? <==>
        ScoreOk(score) && HasStore(stores, storeId) && HasRating(old(ratings), userId, storeId)
      ensures reply.Created? <==>
        ScoreOk(score) && HasStore(stores, storeId) && !HasRating(old(ratings), userId, storeId)
        && HasUser(users, userId)
      // Failures leave the ratings table as it was.
      ensures !reply.Updated? && !reply.Created? ==>
        ratings == old(ratings) && nextRatingId == old(nextRatingId)
      // An update rescores the pair's row in place; every other row stays.
      ensures reply.Updated? ==>
        && |ratings| == |old(ratings)| && nextRatingId == old(nextRatingId)
        && forall k :: 0 <= k < |ratings| ==>
             ratings[k] == if RatingKey(old(ratings)[k]) == (userId, storeId)
                           then Rescored(old(ratings)[k], score, now) else old(ratings)[k]
      // An insert appends one row with a fresh id.
      ensures reply.Created? ==>
        && reply.row == Rating(old(nextRatingId), userId, storeId, score, now)
        && ratings == old(ratings) + [reply.row]
        && nextRatingId == old(nextRatingId) + 1
      // After a success the pair has exactly one row, holding the score.
      ensures reply.Updated? || reply.Created? ==>
        RowsFor(ratings, userId, storeId) == [reply.row] && reply.row.score == score
        && RatingKey(reply.row) == (userId, storeId)
      // The aggregate counts: an update keeps every count, an insert adds one
      // rating to this store only.
      ensures forall sid ::
        StoreCount(ratings, sid)
          == StoreCount(old(ratings), sid) + (if reply.Created? && sid == storeId then 1 else 0)
    {
      if score < 1 || score > 5 {
        return InvalidScore;
      }
      var store := FindStore(stores, storeId);
      if store.None? {
        return StoreNotFound;
      }
      var existing := FindRating(ratings, userId, storeId);
      if existing.Some? {
        var row := RescoreRow(existing.value, score, now);
        return Updated(row);
      }
      if !(exists k :: 0 <= k < |users| && users[k].id == userId) {
        // The foreign key on UserId rejects the insert.
        return RatingServerError;
      }
      var row := AppendRating(userId, storeId, score, now);
      return Created(row);
    }

    /** The update branch of `submitRating`: `existingRating.score = score`
        followed by `save()` on the row at position `i`. */
    method RescoreRow(i: nat, score: int, now: int) returns (row: Rating)
      requires Valid() && i < |ratings| && ScoreOk(score)
      modifies this
      ensures Valid()
      ensures users == old(users) && stores == old(stores)
      ensures nextUserId == old(nextUserId) && nextStoreId == old(nextStoreId)
      ensures nextRatingId == old(nextRatingId)
      ensures row == Rescored(old(ratings)[i], score, now)
      ensures |ratings| == |old(ratings)|
      ensures forall k :: 0 <= k < |ratings| ==>
        ratings[k] == if RatingKey(old(ratings)[k]) == RatingKey(row)
                      then Rescored(old(ratings)[k], score, now) else old(ratings)[k]
      ensures RowsFor(ratings, row.userId, row.storeId) == [row]
      ensures forall sid :: StoreCount(ratings, sid) == StoreCount(old(ratings), sid)
    {
      ghost var before := ratings;
      row := Rescored(ratings[i], score, now);
      RescoreKeepsTables(users, stores, ratings, nextUserId, nextStoreId, nextRatingId, i, row);
      ratings := ratings[i := row];
      OnlyRowFor(ratings, i);
      forall k | 0 <= k < |ratings| && k != i ensures RatingKey(before[k]) != RatingKey(row) {
        assert RatingKey(before[k]) != RatingKey(before[i]);
      }
      forall sid ensures StoreCount(ratings, sid) == StoreCount(before, sid) {
        UpdateKeepsCounts(before, i, row, sid);
      }
    }

    /** The insert branch of `submitRating`: `Rating.create` with the next id. */
    method AppendRating(userId: int, storeId: int, score: int, now: int) returns (row: Rating)
      requires Valid() && ScoreOk(score)
      requires HasUser(users, userId) && HasStore(stores, storeId) && !HasRating(ratings, userId, storeId)
      modifies this
      ensures Valid()
      ensures users == old(users) && stores == old(stores)
      ensures nextUserId == old(nextUserId) && nextStoreId == old(nextStoreId)
      ensures row == Rating(old(nextRatingId), userId, storeId, score, now)
      ensures ratings == old(ratings) + [row] && nextRatingId == old(nextRatingId) + 1
      ensures RowsFor(ratings, userId, storeId) == [row]
      ensures forall sid ::
        StoreCount(ratings, sid) == StoreCount(old(ratings), sid) + (if sid == storeId then 1 else 0)
    {
      var before, id := ratings, nextRatingId;
      row := Rating(id, userId, storeId, score, now);
      ratings, nextRatingId := before + [row], id + 1;
      AppendKeepsTables(users, stores, before, ratings, nextUserId, nextStoreId, id, nextRatingId, row);
    }

    /** Rescoring a row in place keeps the ratings table valid. */
    static lemma RescoreKeepsValid(before: seq<Rating>, users: seq<User>, stores: seq<Store>, nextRatingId: int,
                                   i: nat, row: Rating)
      requires RatingsOk(before, users, stores, nextRatingId)
      requires i < |before| && row.id == before[i].id && RatingKey(row) == RatingKey(before[i])
      requires ScoreOk(row.score)
      ensures RatingsOk(before[i := row], users, stores, nextRatingId)
    {
      var after := before[i := row];
      assert forall k :: 0 <= k < |after| ==>
        RatingId(after[k]) == RatingId(before[k]) && RatingKey(after[k]) == RatingKey(before[k]);
    }

    /** Appending a row with a new pair, an existing user and store and the next
        id keeps the ratings table valid under the advanced counter. */
    static lemma AppendKeepsValid(before: seq<Rating>, users: seq<User>, stores: seq<Store>, row: Rating)
      requires RatingsOk(before, users, stores, row.id)
      requires !HasRating(before, row.userId, row.storeId)
      requires HasUser(users, row.userId) && HasStore(stores, row.storeId)
      requires ScoreOk(row.score) && row.id >= 1
      ensures RatingsOk(before + [row], users, stores, row.id + 1)
    {
      var after := before + [row];
      forall i, j | 0 <= i < j < |after| ensures RatingKey(after[i]) != RatingKey(after[j]) {
        if j == |before| {
          assert after[i] == before[i];
        }
      }
    }

    /** Rescoring the row at `i` keeps every table valid. */
    static lemma RescoreKeepsTables(users: seq<User>, stores: seq<Store>, ratings: seq<Rating>,
                                    nu: int, ns: int, nr: int, i: nat, row: Rating)
      requires TablesOk(users, stores, ratings, nu, ns, nr)
      requires i < |ratings| && row.id == ratings[i].id && RatingKey(row) == RatingKey(ratings[i])
      requires ScoreOk(row.score)
      ensures TablesOk(users, stores, ratings[i := row], nu, ns, nr)
    {
      RescoreKeepsValid(ratings, users, stores, nr, i, row);
    }

    /** Appending a row for a new pair with the next id keeps every table
        valid, and the row is its pair's only one. */
    static lemma AppendKeepsTables(users: seq<User>, stores: seq<Store>, ratings: seq<Rating>, after: seq<Rating>,
                                   nu: int, ns: int, nr: int, next: int, row: Rating)
      requires TablesOk(users, stores, ratings, nu, ns, nr) && row.id == nr
      requires !HasRating(ratings, row.userId, row.storeId)
      requires HasUser(users, row.userId) && HasStore(stores, row.storeId) && ScoreOk(row.score)
      requires after == ratings + [row] && next == nr + 1
      ensures TablesOk(users, stores, after, nu, ns, next)
      ensures RowsFor(after, row.userId, row.storeId) == [row]
      ensures forall sid ::
        StoreCount(after, sid) == StoreCount(ratings, sid) + (if sid == row.storeId then 1 else 0)
    {
      AppendKeepsValid(ratings, users, stores, row);
      OnlyRowFor(after, |ratings|);
      forall sid ensures StoreCount(after, sid)
        == StoreCount(ratings, sid) + (if sid == row.storeId then 1 else 0) {
        InsertCounts(ratings, row, sid);
      }
    }

    /** `createUser` with the password already hashed to `digest`: a taken email
        is a 409; otherwise the row is created with the given role or the
        default one, unless a column check (the `isEmail` validator, whose
        verdict is `emailOk`, the name length, the address length, the role
        ENUM) rejects it inside `User.create`, which the handler's catch turns
        into a 500. */
    method CreateUser(name: string, email: string, emailOk: bool, digest: string, address: string, role: string)
      returns (reply: CreateUserReply)
      requires Valid()
      modifies this
      ensures Valid()
      ensures stores == old(stores) && ratings == old(ratings)
      ensures nextStoreId == old(nextStoreId) && nextRatingId == old(nextRatingId)
      ensures reply == EmailTaken <==> EmailInUse(old(users), email)
      ensures reply.UserCreated? <==>
        !EmailInUse(old(users), email) && RoleOrDefault(role).Some? && emailOk
        && UserRowOk(User(0, name, email, digest, address, DefaultRole))
      ensures reply.UserCreated? ==>
        && reply.user == UserSummary(old(nextUserId), name, email, RoleOrDefault(role).value)
        && users == old(users) + [User(old(nextUserId), name, email, digest, address, reply.user.role)]
        && nextUserId == old(nextUserId) + 1
      ensures !reply.UserCreated? ==> users == old(users) && nextUserId == old(nextUserId)
    {
      if exists k :: 0 <= k < |users| && users[k].email == email {
        return EmailTaken;
      }
      var r := RoleOrDefault(role);
      if r.None? || !emailOk || !(20 <= |name| <= 60 && |address| <= 400) {
        return UserServerError;
      }
      var u := User(nextUserId, name, email, digest, address, r.value);
      ghost var before := users;
      users := users + [u];
      nextUserId := nextUserId + 1;
      reply := UserCreated(UserSummary(u.id, u.name, u.email, u.role));
      forall i, j | 0 <= i < j < |users| ensures UserId(users[i]) != UserId(users[j]) && UserEmail(users[i]) != UserEmail(users[j]) {
        if j == |before| {
          assert users[i] == before[i];
        }
      }
      assert forall k :: 0 <= k < |before| ==> users[k] == before[k];
      assert forall id :: HasUser(before, id) ==> HasUser(users, id);
    }

    /** `createStore`: the row is inserted with the next id. `Store.create`
        throws, and the handler's catch answers 500, when the `isEmail`
        validator rejects the email (its verdict is `emailOk`), when the
        address does not fit its column, or when the owner reference names a
        user that does not exist. */
    method CreateStore(name: string, email: string, emailOk: bool, address: string, ownerId: Option<int>)
      returns (reply: CreateStoreReply)
      requires Valid()
      modifies this
      ensures Valid()
      ensures users == old(users) && ratings == old(ratings)
      ensures nextUserId == old(nextUserId) && nextRatingId == old(nextRatingId)
      ensures reply.StoreServerError? <==>
        || !emailOk
        || !StoreRowOk(Store(0, name, email, address, ownerId))
        || (ownerId.Some? && !HasUser(users, ownerId.value))
      ensures reply.StoreCreated? ==>
        && reply.store == Store(old(nextStoreId), name, email, address, ownerId)
        && stores == old(stores) + [reply.store]
        && nextStoreId == old(nextStoreId) + 1
      ensures reply.StoreServerError? ==> stores == old(stores) && nextStoreId == old(nextStoreId)
    {
      if !emailOk || |address| > 400 || (ownerId.Some? && !(exists k :: 0 <= k < |users| && users[k].id == ownerId.value)) {
        return StoreServerError;
      }
      var s := Store(nextStoreId, name, email, address, ownerId);
      ghost var before := stores;
      stores := stores + [s];
      nextStoreId := nextStoreId + 1;
      reply := StoreCreated(s);
      forall i, j | 0 <= i < j < |stores| ensures StoreId(stores[i]) != StoreId(stores[j]) {
        if j == |before| {
          assert stores[i] == before[i];
        }
      }
      assert forall k :: 0 <= k < |before| ==> stores[k] == before[k];
      assert forall id :: HasStore(before, id) ==> HasStore(stores, id);
    }

    /** Deleting a user: its ratings are deleted with it (`onDelete: 'CASCADE'`)
        and a store it owned loses its owner. */
    method DeleteUser(id: int)
      requires Valid()
      modifies this
      ensures Valid()
      ensures users == UsersWithout(old(users), id)
      ensures stores == ClearOwner(old(stores), id)
      ensures ratings == RatingsNotBy(old(ratings), id)
      ensures forall k :: 0 <= k < |ratings| ==> ratings[k].userId != id
      ensures forall k :: 0 <= k < |stores| ==> stores[k].ownerId != Some(id)
      ensures nextUserId == old(nextUserId) && nextStoreId == old(nextStoreId)
      ensures nextRatingId == old(nextRatingId)
    {
      DeleteUserKeepsTables(users, stores, ratings, nextUserId, nextStoreId, nextRatingId, id);
      users, stores, ratings := UsersWithout(users, id), ClearOwner(stores, id), RatingsNotBy(ratings, id);
    }

    /** Deleting a user and cascading keeps every table valid. */
    static lemma DeleteUserKeepsTables(users: seq<User>, stores: seq<Store>, ratings: seq<Rating>,
                                       nu: int, ns: int, nr: int, id: int)
      requires TablesOk(users, stores, ratings, nu, ns, nr)
      ensures TablesOk(UsersWithout(users, id), ClearOwner(stores, id), RatingsNotBy(ratings, id), nu, ns, nr)
    {
      var users', stores' := UsersWithout(users, id), ClearOwner(stores, id);
      DeleteUserKeepsUsers(users, id, nu);
      DeleteUserKeepsStores(stores, users, users', id, ns);
      DeleteUserKeepsRatings(ratings, users, users', stores, stores', id, nr);
    }

    /** The users table stays valid when one user leaves it, and keeps every
        other user. */
    static lemma DeleteUserKeepsUsers(users: seq<User>, id: int, nextId: int)
      requires UsersOk(users, nextId)
      ensures UsersOk(UsersWithout(users, id), nextId)
      ensures forall uid :: uid != id && HasUser(users, uid) ==>
        HasUser(UsersWithout(users, id), uid)
    {
      var keep := (u: User) => u.id != id;
      var rest := UsersWithout(users, id);
      FilterDistinct(users, keep, UserId);
      FilterDistinct(users, keep, UserEmail);
      forall k | 0 <= k < |rest| ensures UserRowOk(rest[k]) && 1 <= rest[k].id < nextId {
        assert rest[k] in users;
      }
      forall uid | uid != id && HasUser(users, uid) ensures HasUser(rest, uid) {
        var k :| 0 <= k < |users| && users[k].id == uid;
        assert users[k] in rest;
      }
    }

    /** Clearing the deleted owner keeps the stores table valid against the
        remaining users, and keeps every store id. */
    static lemma DeleteUserKeepsStores(stores: seq<Store>, users: seq<User>, users': seq<User>, id: int, nextId: int)
      requires StoresOk(stores, users, nextId)
      requires forall uid :: uid != id && HasUser(users, uid) ==> HasUser(users', uid)
      ensures StoresOk(ClearOwner(stores, id), users', nextId)
      ensures forall sid :: HasStore(stores, sid) ==> HasStore(ClearOwner(stores, id), sid)
    {
      var after := ClearOwner(stores, id);
      assert forall i :: 0 <= i < |after| ==> StoreId(after[i]) == StoreId(stores[i]);
      forall i | 0 <= i < |after| && after[i].ownerId.Some?
        ensures HasUser(users', after[i].ownerId.value)
      {
        assert after[i].ownerId == stores[i].ownerId;
      }
      forall sid | HasStore(stores, sid) ensures HasStore(after, sid) {
        var k :| 0 <= k < |stores| && stores[k].id == sid;
        assert after[k].id == sid;
      }
    }

    /** The ratings left after removing a user's ratings satisfy the ratings
        table's constraints against the reduced tables. */
    static lemma DeleteUserKeepsRatings(ratings: seq<Rating>, users: seq<User>, users': seq<User>,
                                        stores: seq<Store>, stores': seq<Store>, id: int, nextId: int)
      requires RatingsOk(ratings, users, stores, nextId)
      requires forall uid :: uid != id && HasUser(users, uid) ==> HasUser(users', uid)
      requires forall sid :: HasStore(stores, sid) ==> HasStore(stores', sid)
      ensures RatingsOk(RatingsNotBy(ratings, id), users', stores', nextId)
    {
      var keep := (r: Rating) => r.userId != id;
      var rest := RatingsNotBy(ratings, id);
      FilterDistinct(ratings, keep, RatingId);
      FilterDistinct(ratings, keep, RatingKey);
      forall k | 0 <= k < |rest|
        ensures ScoreOk(rest[k].score) && 1 <= rest[k].id < nextId
        ensures HasUser(users', rest[k].userId) && HasStore(stores', rest[k].storeId)
      {
        assert rest[k] in ratings;
      }
    }

    /** Deleting a store: its ratings are deleted with it (`onDelete: 'CASCADE'`). */
    method DeleteStore(id: int)
      requires Valid()
      modifies this
      ensures Valid()
      ensures users == old(users)
      ensures stores == StoresWithout(old(stores), id)
      ensures ratings == RatingsNotFor(old(ratings), id)
      ensures forall k :: 0 <= k < |ratings| ==> ratings[k].storeId != id
      ensures nextUserId == old(nextUserId) && nextStoreId == old(nextStoreId)
      ensures nextRatingId == old(nextRatingId)
    {
      DeleteStoreKeepsTables(users, stores, ratings, nextUserId, nextStoreId, nextRatingId, id);
      stores, ratings := StoresWithout(stores, id), RatingsNotFor(ratings, id);
    }

    /** Deleting a store and cascading to its ratings keeps every table valid. */
    static lemma DeleteStoreKeepsTables(users: seq<User>, stores: seq<Store>, ratings: seq<Rating>,
                                        nu: int, ns: int, nr: int, id: int)
      requires TablesOk(users, stores, ratings, nu, ns, nr)
      ensures TablesOk(users, StoresWithout(stores, id), RatingsNotFor(ratings, id), nu, ns, nr)
    {
      var keepStore := (s: Store) => s.id != id;
      var keepRating := (r: Rating) => r.storeId != id;
      var stores', ratings' := StoresWithout(stores, id), RatingsNotFor(ratings, id);
      FilterDistinct(stores, keepStore, StoreId);
      FilterDistinct(ratings, keepRating, RatingId);
      FilterDistinct(ratings, keepRating, RatingKey);
      assert forall sid :: sid != id && HasStore(stores, sid) ==> HasStore(stores', sid) by {
        forall sid | sid != id && HasStore(stores, sid) ensures HasStore(stores', sid) {
          var k :| 0 <= k < |stores| && stores[k].id == sid;
          assert stores[k] in stores';
        }
      }
    }
  }
}

=== FILE: text.dfy ===
/** String helpers with the JavaScript semantics the source relies on:
    `String.prototype.trim`, the character classes of its regular expressions,
    `String.prototype.toUpperCase` as far as a comparison with an ASCII word can
    observe it, and the substring test behind a `LIKE '%text%'` search. */
module Text {

  /** The characters JavaScript's `trim` (and the `\s` class) removes: ASCII
      white space, line terminators and the Unicode space separators. */
  predicate IsSpace(c: char) {
    || c == ' ' || c == '\t' || c == '\n' || c == '\r' || c == '\U{000B}' || c == '\U{000C}'
    || c == '\U{00A0}' || c == '\U{1680}' || ('\U{2000}' <= c <= '\U{200A}')
    || c == '\U{2028}' || c == '\U{2029}' || c == '\U{202F}' || c == '\U{205F}'
    || c == '\U{3000}' || c == '\U{FEFF}'
  }

  /** `s` without its leading white space. */
  function TrimStart(s: string): (r: string)
    ensures |r| <= |s| && r == s[|s| - |r|..]
    ensures forall i :: 0 <= i < |s| - |r| ==> IsSpace(s[i])
    ensures r == [] || !IsSpace(r[0])
  {
    if s == [] || !IsSpace(s[0]) then s else TrimStart(s[1..])
  }

  /** `s` without its trailing white space. */
  function TrimEnd(s: string): (r: string)
    ensures |r| <= |s| && r == s[..|r|]
    ensures forall i :: |r| <= i < |s| ==> IsSpace(s[i])
    ensures r == [] || !IsSpace(r[|r| - 1])
  {
    if s == [] || !IsSpace(s[|s| - 1]) then s else TrimEnd(s[..|s| - 1])
  }

  /** `r` is `s` from position `a` on, with only white space around it. */
  predicate TrimmedAt(s: string, r: string, a: nat) {
    && a + |r| <= |s| && r == s[a..a + |r|]
    && (forall i :: 0 <= i < a ==> IsSpace(s[i]))
    && (forall i :: a + |r| <= i < |s| ==> IsSpace(s[i]))
  }

  /** JavaScript's `s.trim()`: the longest infix of `s` that neither starts nor
      ends with white space, once the white space around it is removed. */
  function Trim(s: string): (r: string)
    ensures |r| <= |s|
    ensures exists a: nat :: TrimmedAt(s, r, a)
    ensures r == [] || (!IsSpace(r[0]) && !IsSpace(r[|r| - 1]))
  {
    var t := TrimStart(s);
    var r := TrimEnd(t);
    TrimBoth(s, t, r);
    r
  }

  /** Trimming the end of the trimmed start trims `s` at `|s| - |t|`. */
  lemma TrimBoth(s: string, t: string, r: string)
    requires t == TrimStart(s) && r == TrimEnd(t)
    ensures TrimmedAt(s, r, |s| - |t|)
  {
    SpacesAround(s, t, r, |s| - |t|);
  }

  /** `t` is `s` from `a` on after leading white space, and `r` a prefix of `t`
      followed by white space: then `r` is `s` trimmed at `a`. */
  lemma SpacesAround(s: string, t: string, r: string, a: nat)
    requires a + |t| == |s| && t == s[a..] && (forall i :: 0 <= i < a ==> IsSpace(s[i]))
    requires |r| <= |t| && r == t[..|r|] && (forall i :: |r| <= i < |t| ==> IsSpace(t[i]))
    ensures TrimmedAt(s, r, a)
  {
    SliceOfSuffix(s, a, |r|);
    forall i | a + |r| <= i < |s| ensures IsSpace(s[i]) {
      assert s[i] == t[i - a];
    }
  }

  /** A prefix of a suffix is an infix. */
  lemma SliceOfSuffix(s: string, a: nat, n: nat)
    requires a + n <= |s|
    ensures s[a..][..n] == s[a..a + n]
  {
  }

  /** A string that starts with white space loses at least one character. */
  lemma TrimShortensLeadingSpace(s: string)
    requires s != [] && IsSpace(s[0])
    ensures |Trim(s)| < |s|
  {
  }

  /** The ASCII capital letters, the class `[A-Z]` of a regular expression. */
  predicate IsUpperAscii(c: char) {
    'A' <= c <= 'Z'
  }

  /** Some character of `s` satisfies a regular-expression class `[...]`. */
  predicate ContainsAny(s: string, chars: set<char>) {
    exists i :: 0 <= i < |s| && s[i] in chars
  }

  /** `/[A-Z]/.test(s)`. */
  predicate ContainsUpper(s: string) {
    exists i :: 0 <= i < |s| && IsUpperAscii(s[i])
  }

  /** `sub` occurs in `s` at position `i`. */
  predicate OccursAt(s: string, sub: string, i: nat) {
    i + |sub| <= |s| && s[i..i + |sub|] == sub
  }

  /** `sub` occurs somewhere in `s` (`s.includes(sub)`, `LIKE '%sub%'`). */
  predicate Contains(s: string, sub: string) {
    exists i :: 0 <= i <= |s| - |sub| && OccursAt(s, sub, i)
  }

  /** Every string contains the empty string. */
  lemma ContainsEmpty(s: string)
    ensures Contains(s, "")
  {
    assert OccursAt(s, "", 0);
  }

  /** Upper-casing of one character, exact for every character that
      upper-cases to a single ASCII letter:
      ASCII `a`-`z`, the long s (U+017F) that upper-cases to `S` and the
      dotless i (U+0131) that upper-cases to `I`. Other characters are kept,
      where JavaScript changes some (`é` to `É`, `ß` to the two letters `SS`);
      no such change can make a string upper-case to `DESC`, the one
      comparison the handlers make. */
  function UpperChar(c: char): (u: char)
    ensures 'a' <= c <= 'z' ==> u as int == c as int - 32
    ensures c == '\U{017F}' ==> u == 'S'
    ensures c == '\U{0131}' ==> u == 'I'
    ensures !('a' <= c <= 'z') && c != '\U{017F}' && c != '\U{0131}' ==> u == c
  {
    if 'a' <= c <= 'z' then (c as int - 32) as char
    else if c == '\U{017F}' then 'S'
    else if c == '\U{0131}' then 'I'
    else c
  }

  /** `s.toUpperCase()`, character by character. */
  function ToUpper(s: string): (r: string)
    ensures |r| == |s|
    ensures forall i :: 0 <= i < |s| ==> r[i] == UpperChar(s[i])
  {
    if s == [] then [] else [UpperChar(s[0])] + ToUpper(s[1..])
  }
}

=== FILE: validation.dfy ===
/** The express-validator chains of the signup and login routes and the final
    middleware that answers 400 with the collected errors or passes the
    (sanitized) request on. Every validator of a chain runs, so the error list
    holds one entry per failed check, in chain order. */
module Validation {
  import opened Text
  import opened Schema

  /** The special characters of the backend password rule `[!@#$%^&*(),.?":{}|<>]`. */
  const BackendSpecials: set<char> :=
    {'!', '@', '#', '$', '%', '^', '&', '*', '(', ')', ',', '.', '?', '"', ':', '{', '}', '|', '<', '>'}

  /** The request fields the chains check. */
  datatype Field = Name | Email | Password | Address {
    function Key(): string {
      match this
      case Name => "name"
      case Email => "email"
      case Password => "password"
      case Address => "address"
    }

    /** The position of the field's chain in `validateSignup`. */
    function Rank(): nat {
      match this
      case Name => 0
      case Email => 1
      case Password => 2
      case Address => 3
    }
  }

  /** One entry of `errors.array()`: the field and its message. */
  datatype FieldError = FieldError(field: Field, msg: string)

  /** express-validator's message for a check without `withMessage`. */
  const DefaultMsg := "Invalid value"

  const NameMsg := "Name length must be 20-60 characters"

  /** A signup request body. `emailOk` is the verdict of `isEmail()` on the
      trimmed email, a library check outside the model. */
  datatype SignupBody = SignupBody(name: string, email: string, password: string, address: string)

  /** The rules of `validateSignup`, each on the sanitized value. */
  predicate NameOk(name: string) { 20 <= |Trim(name)| <= 60 }
  predicate PasswordLengthOk(password: string) { 8 <= |password| <= 16 }
  predicate BackendPasswordOk(password: string) {
    PasswordLengthOk(password) && ContainsUpper(password) && ContainsAny(password, BackendSpecials)
  }
  predicate AddressOk(address: string) { |Trim(address)| <= 400 }

  /** The check is listed when it fails. */
  function Check(ok: bool, field: Field, msg: string): (r: seq<FieldError>)
    // definition: one validator of the chain
    ensures ok <==> r == []
    ensures !ok ==> r == [FieldError(field, msg)]
  {
    if ok then [] else [FieldError(field, msg)]
  }

  /** The verdicts of the six signup validators, in chain order. */
  datatype Verdicts = Verdicts(name: bool, email: bool, length: bool, upper: bool, special: bool, address: bool)

  /** The number of entries of `errs` about `f`. */
  function FieldCount(errs: seq<FieldError>, f: Field): nat {
    if errs == [] then 0
    else FieldCount(errs[..|errs| - 1], f) + (if errs[|errs| - 1].field == f then 1 else 0)
  }

  /** The entries are grouped by chain, the chains in declaration order. */
  predicate InChainOrder(errs: seq<FieldError>) {
    forall i, j :: 0 <= i < j < |errs| ==> errs[i].field.Rank() <= errs[j].field.Rank()
  }

  /** The name chain carries its own message; every other check has none and
      reports express-validator's default. */
  predicate SignupMessages(errs: seq<FieldError>) {
    forall i :: 0 <= i < |errs| ==> errs[i].msg == (if errs[i].field == Name then NameMsg else DefaultMsg)
  }

  /** The collected errors for a set of verdicts: one entry per failed
      validator, grouped by field in chain order. */
  function ChainErrors(v: Verdicts): (errs: seq<FieldError>)
    ensures errs == [] <==> v.name && v.email && v.length && v.upper && v.special && v.address
    ensures FieldCount(errs, Name) == (if v.name then 0 else 1)
    ensures FieldCount(errs, Email) == (if v.email then 0 else 1)
    ensures FieldCount(errs, Password) ==
      (if v.length then 0 else 1) + (if v.upper then 0 else 1) + (if v.special then 0 else 1)
    ensures FieldCount(errs, Address) == (if v.address then 0 else 1)
    ensures InChainOrder(errs) && SignupMessages(errs)
    ensures |errs| == (if v.name then 0 else 1) + (if v.email then 0 else 1) + (if v.length then 0 else 1)
      + (if v.upper then 0 else 1) + (if v.special then 0 else 1) + (if v.address then 0 else 1)
  {
    var n := Check(v.name, Name, NameMsg);
    var e := Check(v.email, Email, DefaultMsg);
    var w := Check(v.length, Password, DefaultMsg) + Check(v.upper, Password, DefaultMsg)
      + Check(v.special, Password, DefaultMsg);
    var a := Check(v.address, Address, DefaultMsg);
    PasswordChecks(v.length, v.upper, v.special);
    ChainCounts(n, e, w, a);
    assert |n| == (if v.name then 0 else 1) && |e| == (if v.email then 0 else 1);
    assert |a| == (if v.address then 0 else 1);
    n + e + w + a
  }

  /** The password chain's three checks list one entry per failure, all
      about the password. */
  lemma PasswordChecks(length: bool, upper: bool, special: bool)
    ensures var w := Check(length, Password, DefaultMsg) + Check(upper, Password, DefaultMsg)
      + Check(special, Password, DefaultMsg);
      && |w| == (if length then 0 else 1) + (if upper then 0 else 1) + (if special then 0 else 1)
      && forall x :: x in w ==> x == FieldError(Password, DefaultMsg)
  {
  }

  /** The name, email, password and address lists, each holding only its
      chain's error. */
  predicate ChainParts(n: seq<FieldError>, e: seq<FieldError>, w: seq<FieldError>, a: seq<FieldError>) {
    && (forall x :: x in n ==> x == FieldError(Name, NameMsg))
    && (forall x :: x in e ==> x == FieldError(Email, DefaultMsg))
    && (forall x :: x in w ==> x == FieldError(Password, DefaultMsg))
    && (forall x :: x in a ==> x == FieldError(Address, DefaultMsg))
  }

  /** Joined in chain order, each part contributes its length to its field's
      count, and the entries are in chain order with the chains' messages. */
  lemma ChainCounts(n: seq<FieldError>, e: seq<FieldError>, w: seq<FieldError>, a: seq<FieldError>)
    requires ChainParts(n, e, w, a)
    ensures var errs := n + e + w + a;
      && FieldCount(errs, Name) == |n| && FieldCount(errs, Email) == |e|
      && FieldCount(errs, Password) == |w| && FieldCount(errs, Address) == |a|
      && InChainOrder(errs) && SignupMessages(errs)
  {
    var errs := n + e + w + a;
    forall f: Field
      ensures FieldCount(errs, f) == (if f == Name then |n| else 0) + (if f == Email then |e| else 0)
        + (if f == Password then |w| else 0) + (if f == Address then |a| else 0)
    {
      OneFieldCount(n, Name, f);
      OneFieldCount(e, Email, f);
      OneFieldCount(w, Password, f);
      OneFieldCount(a, Address, f);
      FieldCountAppend(n, e, f);
      FieldCountAppend(n + e, w, f);
      FieldCountAppend(n + e + w, a, f);
    }
    OneFieldOrdered(n, Name);
    OneFieldOrdered(e, Email);
    OneFieldOrdered(w, Password);
    OneFieldOrdered(a, Address);
    OrderedAppend(n, e, 0);
    OrderedAppend(n + e, w, 1);
    OrderedAppend(n + e + w, a, 2);
    forall i | 0 <= i < |errs|
      ensures errs[i].msg == (if errs[i].field == Name then NameMsg else DefaultMsg)
    {
      assert errs[i] in errs;
    }
  }

  /** A list about one field holds only entries about it. */
  lemma {:induction false} OneFieldCount(xs: seq<FieldError>, f: Field, g: Field)
    requires forall x :: x in xs ==> x.field == f
    ensures FieldCount(xs, g) == if f == g then |xs| else 0
  {
    if xs != [] {
      assert xs[|xs| - 1] in xs;
      OneFieldCount(xs[..|xs| - 1], f, g);
    }
  }

  /** A list about one field is in chain order. */
  lemma OneFieldOrdered(xs: seq<FieldError>, f: Field)
    requires forall x :: x in xs ==> x.field == f
    ensures InChainOrder(xs)
  {
    forall i, j | 0 <= i < j < |xs| ensures xs[i].field.Rank() <= xs[j].field.Rank() {
      assert xs[i] in xs && xs[j] in xs;
    }
  }

  /** Counting over a concatenation adds the counts of its parts. */
  lemma {:induction false} FieldCountAppend(xs: seq<FieldError>, ys: seq<FieldError>, f: Field)
    ensures FieldCount(xs + ys, f) == FieldCount(xs, f) + FieldCount(ys, f)
  {
    if ys != [] {
      var zs := xs + ys;
      assert zs[..|zs| - 1] == xs + ys[..|ys| - 1];
      FieldCountAppend(xs, ys[..|ys| - 1], f);
    } else {
      assert xs + ys == xs;
    }
  }

  /** Two ordered lists, the first up to chain `k`, the second from chain `k`
      on, join into an ordered list. */
  lemma OrderedAppend(xs: seq<FieldError>, ys: seq<FieldError>, k: nat)
    requires InChainOrder(xs) && InChainOrder(ys)
    requires forall x :: x in xs ==> x.field.Rank() <= k
    requires forall y :: y in ys ==> k <= y.field.Rank()
    ensures InChainOrder(xs + ys)
  {
    var zs := xs + ys;
    forall i, j | 0 <= i < j < |zs| ensures zs[i].field.Rank() <= zs[j].field.Rank() {
      if j < |xs| {
        assert zs[i] == xs[i] && zs[j] == xs[j];
      } else if i >= |xs| {
        assert zs[i] == ys[i - |xs|] && zs[j] == ys[j - |xs|];
      } else {
        assert zs[i] == xs[i] && zs[j] == ys[j - |xs|];
      }
    }
  }

  /** The name error, when there is one, comes first, and the address error,
      when there is one, comes last. */
  lemma ChainErrorsEnds(v: Verdicts)
    ensures var errs := ChainErrors(v);
      && (!v.name <==> errs != [] && errs[0] == FieldError(Name, NameMsg))
      && (!v.address <==> errs != [] && errs[|errs| - 1] == FieldError(Address, DefaultMsg))
  {
    var errs := ChainErrors(v);
    NameFirst(errs);
    AddressLast(errs);
  }

  /** In a list in chain order with the chains' messages, the name has an
      entry exactly when the list starts with the name error. */
  lemma NameFirst(xs: seq<FieldError>)
    requires InChainOrder(xs) && SignupMessages(xs)
    ensures FieldCount(xs, Name) > 0 <==> xs != [] && xs[0] == FieldError(Name, NameMsg)
  {
    if FieldCount(xs, Name) > 0 {
      FirstIsName(xs);
    } else if xs != [] {
      EntryCounted(xs, 0);
    }
  }

  /** A name entry puts the name error first. */
  lemma FirstIsName(xs: seq<FieldError>)
    requires InChainOrder(xs) && SignupMessages(xs) && FieldCount(xs, Name) > 0
    ensures xs != [] && xs[0] == FieldError(Name, NameMsg)
  {
    FirstIsLowest(xs, Name);
    assert xs[0].field == Name;
  }

  /** In a list in chain order with the chains' messages, the address has an
      entry exactly when the list ends with the address error. */
  lemma AddressLast(xs: seq<FieldError>)
    requires InChainOrder(xs) && SignupMessages(xs)
    ensures FieldCount(xs, Address) > 0 <==> xs != [] && xs[|xs| - 1] == FieldError(Address, DefaultMsg)
  {
    if FieldCount(xs, Address) > 0 {
      LastIsAddress(xs);
    } else if xs != [] {
      EntryCounted(xs, |xs| - 1);
    }
  }

  /** An address entry puts the address error last. */
  lemma LastIsAddress(xs: seq<FieldError>)
    requires InChainOrder(xs) && SignupMessages(xs) && FieldCount(xs, Address) > 0
    ensures xs != [] && xs[|xs| - 1] == FieldError(Address, DefaultMsg)
  {
    LastIsHighest(xs, Address);
    assert xs[|xs| - 1].field == Address;
  }

  /** The counts, the chain order and the messages fix the list: any list with
      the field counts of a set of verdicts, in chain order and with the
      chains' messages, is the one the chains collect. */
  lemma ChainErrorsUnique(v: Verdicts, errs: seq<FieldError>)
    requires FieldCount(errs, Name) == (if v.name then 0 else 1)
    requires FieldCount(errs, Email) == (if v.email then 0 else 1)
    requires FieldCount(errs, Password) ==
      (if v.length then 0 else 1) + (if v.upper then 0 else 1) + (if v.special then 0 else 1)
    requires FieldCount(errs, Address) == (if v.address then 0 else 1)
    requires InChainOrder(errs) && SignupMessages(errs)
    ensures errs == ChainErrors(v)
  {
    SameGroupsSame(errs, ChainErrors(v));
  }

  /** Two lists in chain order with the chains' messages and the same count
      for every field are equal. */
  lemma {:induction false} SameGroupsSame(xs: seq<FieldError>, ys: seq<FieldError>)
    requires InChainOrder(xs) && InChainOrder(ys)
    requires SignupMessages(xs) && SignupMessages(ys)
    requires SameCounts(xs, ys)
    ensures xs == ys
    decreases |xs|
  {
    LengthIsCounts(xs);
    LengthIsCounts(ys);
    if xs != [] {
      LastFieldsAgree(xs, ys);
      DropLast(xs);
      DropLast(ys);
      DropLastCounts(xs, ys);
      SameGroupsSame(xs[..|xs| - 1], ys[..|ys| - 1]);
      SplitLast(xs);
      SplitLast(ys);
    }
  }

  /** Two non-empty lists in chain order with the chains' messages and the
      same counts end in the same entry. */
  lemma LastFieldsAgree(xs: seq<FieldError>, ys: seq<FieldError>)
    requires xs != [] && ys != []
    requires InChainOrder(xs) && InChainOrder(ys)
    requires SignupMessages(xs) && SignupMessages(ys)
    requires SameCounts(xs, ys)
    ensures xs[|xs| - 1] == ys[|ys| - 1]
  {
    var x, y := xs[|xs| - 1], ys[|ys| - 1];
    EntryCounted(xs, |xs| - 1);
    EntryCounted(ys, |ys| - 1);
    assert FieldCount(ys, x.field) > 0 && FieldCount(xs, y.field) > 0;
    LastIsHighest(xs, y.field);
    LastIsHighest(ys, x.field);
    assert x.field == y.field;
  }

  /** Dropping the last entry keeps the chain order and the messages. */
  lemma DropLast(xs: seq<FieldError>)
    requires xs != [] && InChainOrder(xs) && SignupMessages(xs)
    ensures InChainOrder(xs[..|xs| - 1]) && SignupMessages(xs[..|xs| - 1])
  {
  }

  /** A non-empty list is its front followed by its last entry. */
  lemma SplitLast(xs: seq<FieldError>)
    requires xs != []
    ensures xs == xs[..|xs| - 1] + [xs[|xs| - 1]]
  {
  }

  /** Dropping the same last entry from both lists keeps their counts equal. */
  lemma DropLastCounts(xs: seq<FieldError>, ys: seq<FieldError>)
    requires xs != [] && ys != [] && xs[|xs| - 1] == ys[|ys| - 1]
    requires SameCounts(xs, ys)
    ensures SameCounts(xs[..|xs| - 1], ys[..|ys| - 1])
  {
  }

  /** Both lists have the same count for every field. */
  predicate SameCounts(xs: seq<FieldError>, ys: seq<FieldError>) {
    && FieldCount(xs, Name) == FieldCount(ys, Name)
    && FieldCount(xs, Email) == FieldCount(ys, Email)
    && FieldCount(xs, Password) == FieldCount(ys, Password)
    && FieldCount(xs, Address) == FieldCount(ys, Address)
  }

  /** A list's length is the sum of its field counts. */
  lemma {:induction false} LengthIsCounts(xs: seq<FieldError>)
    ensures |xs| == FieldCount(xs, Name) + FieldCount(xs, Email) + FieldCount(xs, Password)
      + FieldCount(xs, Address)
  {
    if xs != [] {
      LengthIsCounts(xs[..|xs| - 1]);
    }
  }

  /** In a list in chain order, every field with an entry ranks no higher than
      the last entry's field. */
  lemma {:induction false} LastIsHighest(xs: seq<FieldError>, f: Field)
    requires InChainOrder(xs) && FieldCount(xs, f) > 0
    ensures f.Rank() <= xs[|xs| - 1].field.Rank()
  {
    var i := CountedEntry(xs, f);
  }

  /** In a list in chain order, the first entry's field ranks no higher than
      any field with an entry. */
  lemma FirstIsLowest(xs: seq<FieldError>, f: Field)
    requires InChainOrder(xs) && FieldCount(xs, f) > 0
    ensures xs[0].field.Rank() <= f.Rank()
  {
    var i := CountedEntry(xs, f);
  }

  /** Every entry is counted for its field. */
  lemma {:induction false} EntryCounted(xs: seq<FieldError>, i: nat)
    requires i < |xs|
    ensures FieldCount(xs, xs[i].field) > 0
  {
    if i < |xs| - 1 {
      EntryCounted(xs[..|xs| - 1], i);
    }
  }

  /** A field with a positive count has an entry. */
  lemma {:induction false} CountedEntry(xs: seq<FieldError>, f: Field) returns (i: nat)
    requires FieldCount(xs, f) > 0
    ensures i < |xs| && xs[i].field == f
  {
    if xs[|xs| - 1].field == f {
      i := |xs| - 1;
    } else {
      i := CountedEntry(xs[..|xs| - 1], f);
    }
  }

  /** What the signup validators decide on a body. */
  function SignupVerdicts(b: SignupBody, emailOk: bool): Verdicts {
    Verdicts(NameOk(b.name), emailOk, PasswordLengthOk(b.password), ContainsUpper(b.password),
      ContainsAny(b.password, BackendSpecials), AddressOk(b.address))
  }

  /** `validationResult(req).array()` after `validateSignup`'s chains: empty
      exactly when every rule holds, and at most one entry per rule. */
  function SignupErrors(b: SignupBody, emailOk: bool): (errs: seq<FieldError>)
    ensures errs == [] <==>
      NameOk(b.name) && emailOk && BackendPasswordOk(b.password) && AddressOk(b.address)
    ensures |errs| <= 6
  {
    ChainErrors(SignupVerdicts(b, emailOk))
  }

  /** On a signup body the name error, when the name fails, comes first, and
      the address error, when the address fails, comes last. */
  lemma SignupErrorsEnds(b: SignupBody, emailOk: bool)
    ensures var errs := SignupErrors(b, emailOk);
      && (!NameOk(b.name) <==> errs != [] && errs[0] == FieldError(Name, NameMsg))
      && (!AddressOk(b.address) <==> errs != [] && errs[|errs| - 1] == FieldError(Address, DefaultMsg))
  {
    ChainErrorsEnds(SignupVerdicts(b, emailOk));
  }

  /** On a signup body each failed rule gives one entry for its field, the
      entries grouped by field in chain order and worded by the chains. */
  lemma SignupErrorsCounts(b: SignupBody, emailOk: bool)
    ensures var errs := SignupErrors(b, emailOk);
      && FieldCount(errs, Name) == (if NameOk(b.name) then 0 else 1)
      && FieldCount(errs, Email) == (if emailOk then 0 else 1)
      && FieldCount(errs, Password) == (if PasswordLengthOk(b.password) then 0 else 1)
        + (if ContainsUpper(b.password) then 0 else 1) + (if ContainsAny(b.password, BackendSpecials) then 0 else 1)
      && FieldCount(errs, Address) == (if AddressOk(b.address) then 0 else 1)
      && InChainOrder(errs) && SignupMessages(errs)
  {
  }

  /** The outcome of the last middleware of a chain: 400 with the errors, or
      `next()` with the body the sanitizers left (name and address trimmed;
      `normalizeEmail` is a library call the model leaves the email without). */
  datatype GateResult<B> = Rejected(errors: seq<FieldError>) | Next(body: B) {
    function Status(): int {
      match this
      case Rejected(_) => 400
      case Next(_) => 200
    }
  }

  /** `validateSignup`: a body reaches the handler exactly when every rule holds,
      with its name and address trimmed and its password untouched. */
  function ValidateSignup(b: SignupBody, emailOk: bool): (g: GateResult<SignupBody>)
    ensures g.Next? <==>
      NameOk(b.name) && emailOk && BackendPasswordOk(b.password) && AddressOk(b.address)
    ensures g.Rejected? ==> g.errors == SignupErrors(b, emailOk) && g.errors != []
    ensures g.Next? ==>
      && g.body.password == b.password
      && 20 <= |g.body.name| <= 60 && |g.body.address| <= 400
      && g.body == SignupBody(Trim(b.name), Trim(b.email), b.password, Trim(b.address))
  {
    var errs := SignupErrors(b, emailOk);
    if errs != [] then Rejected(errs)
    else Next(SignupBody(Trim(b.name), Trim(b.email), b.password, Trim(b.address)))
  }

  /** A login request body; `hasPassword` is false when the field is absent,
      and `password` is then the empty string. */
  datatype LoginBody = LoginBody(email: string, password: string, hasPassword: bool)

  /** `validateLogin`: a valid email and a present password. */
  function ValidateLogin(b: LoginBody, emailOk: bool): (g: GateResult<LoginBody>)
    ensures g.Next? <==> emailOk && b.hasPassword
    ensures g.Rejected? ==> 1 <= |g.errors| <= 2
    ensures g.Rejected? ==> (FieldError(Password, DefaultMsg) in g.errors <==> !b.hasPassword)
    ensures g.Rejected? ==> (FieldError(Email, DefaultMsg) in g.errors <==> !emailOk)
    ensures g.Rejected? ==> |g.errors| == (if emailOk then 0 else 1) + (if b.hasPassword then 0 else 1)
    // the email chain runs first, and both report the default message
    ensures g.Rejected? && !emailOk ==> g.errors[0] == FieldError(Email, DefaultMsg)
    ensures g.Rejected? ==> forall e :: e in g.errors ==>
      e.msg == DefaultMsg && (e.field == Email || e.field == Password)
    ensures g.Next? ==> g.body == b.(email := Trim(b.email))
  {
    var errs := Check(emailOk, Email, DefaultMsg) + Check(b.hasPassword, Password, DefaultMsg);
    if errs != [] then Rejected(errs) else Next(b.(email := Trim(b.email)))
  }

  /** A signup body that passed the gate makes a user row that meets the users
      table's column constraints, whatever its id, digest and role: the
      handler's insert cannot fail them. */
  lemma ValidatedSignupFitsUserRow(b: SignupBody, emailOk: bool, id: int, digest: string, role: Role)
    requires ValidateSignup(b, emailOk).Next?
    ensures var v := ValidateSignup(b, emailOk).body;
      UserRowOk(User(id, v.name, v.email, digest, v.address, role))
  {
  }
}

=== FILE: wrappers.dfy ===
/** The optional value used wherever the source has a nullable result
    (`null`, `undefined`, a missing dictionary key). */
module Wrappers {

  datatype Option<+T> = None | Some(value: T) {

    /** The value, or `default` when there is none. */
    function GetOr(default: T): T {
      match this
      case Some(v) => v
      case None => default
    }
  }
}
